=== FILE: README.md ===
# Metrodorf core in Dafny

Metrodorf predicts train delays in the polycentric Rhine-Ruhr region. This
project models the deterministic core of that system and proves properties
about it:

- **Collector** (`collector.dfy`): the fallback station list and the synthetic
  training export. This covers the peak-hour rule, the 0/1 flags and the delay
  multiplier `1 + 1.5·peak + 2·cologne`.
- **ZoneBuilder** (`zone_builder.dfy`, with `geo_decay.dfy`): the eight zone
  centres and each zone's population-weighted Gaussian influence on a station.
  It also covers the coordinate fallback for stations without a position, the
  per-station feature rows, and the zone-to-zone interaction record and matrix.
- **Features** (`features.dfy`): `prepare_features`. It derives the four
  features on a copy of the training table, selects the nine feature columns,
  and separates the `delay_minutes` target.
- **GaussianModel** (`gaussian_model.dfy`): the Gaussian-inspired regressor. Its
  `fit` and `predict` add the same kernel columns and then call a Ridge
  regression. `score` is R².
- **Ensemble** (`ensemble_methods.dfy`): the weighted-average ensemble
  `predict_ensemble` and the single-journey `predict_delay`.
- **TrainingPipeline** (`training_pipeline.dfy`): the three-way split, the
  three fits, the validation R² of each model clamped at 0 as its weight, and
  the normalisation of those weights.

Supporting modules:

- `tables.dfy` models Python dicts as lists of entries with distinct keys in
  insertion order. It models pandas DataFrames as labelled columns of equal
  height.
- `results.dfy` holds the `Result` type for the error paths: `KeyError`,
  division by zero, and calling a model before `fit`.
- `schema.dfy` holds the column labels.
- `data_split.dfy` models scikit-learn's `train_test_split`. It holds out the
  first ⌈f·n⌉ rows of a seeded shuffle and keeps the rest, and it raises a
  `ValueError` when the kept part would be empty.
- `arith.dfy` holds small facts about sums and quotients.

Some parts of the system are outside what Dafny can compute:

- `np.exp`, the haversine distance, the three regressors, the seeded shuffle of
  `train_test_split` and `r2_score` enter as function parameters.
- The only properties assumed of them are the law predicates `ExpLaws`,
  `DistLaws` and `FitterLaws`, and the shuffle's type `DataSplit.Shuffle`: a
  permutation of the rows for every row count. The laws are stated as
  hypotheses where a proof needs them.
- `GeoDecay.LawsAreSatisfiable` gives an exp and a distance that meet
  `ExpLaws` and `DistLaws`. `TrainingPipeline.LearnersAreSatisfiable` gives a
  fitter that meets `FitterLaws` and learners that meet `LearnersLaws`. So
  none of these hypotheses is contradictory.
- Random draws are inputs, and file I/O is not modelled.

Two behaviours of the code are worth stating up front:

- `predict_ensemble` (models/ensemble_methods.py:10-13) divides by the weight
  total without a guard. With all-zero weights and at least one model, the
  model returns `ZeroDivision`. This is also what a trained ensemble does when
  no model scores above 0 on validation.
- The zone table's Düsseldorf key is mis-encoded; see Findings.

## Model

| member | source | states |
|---|---|---|
| `Collector.CreateMinimalStations` | data/collector.py:61-73 | One record per city, in the cities' order. The name is the city plus " Hbf", the id is the lower-cased city, and both coordinates are 0.0. |
| `Collector.LowerChar` | data/collector.py:68 | An ASCII capital becomes the small letter at the same place in the alphabet, and every other character is kept. |
| `Collector.Lower` | data/collector.py:68 | `str.lower()` keeps the length and lower-cases each ASCII capital to its own small letter. It leaves no upper-case ASCII letter and keeps every other character. |
| `Collector.LowerIdempotent` | data/collector.py:68 | Lower-casing an already lower-cased string changes nothing. |
| `Collector.CityIds` | data/collector.py:61-73 | The eight minimal station ids are the city names with their capitals made small, e.g. "dortmund" and "düsseldorf". |
| `Collector.IsPeakHour` | data/collector.py:165-167 | An hour is a peak hour exactly when it is one of 7, 8, 9, 16, 17 and 18. |
| `Collector.PeakHoursPerDay` | data/collector.py:165-167 | Of the hours 0-23, exactly 7, 8, 9, 16, 17 and 18 are peak hours: six per day. |
| `Collector.Flag` | data/collector.py:183-184 | `astype(int)` on a boolean is 0 or 1, and it is 1 exactly when the boolean is true. |
| `Collector.DelayMultiplier` | data/collector.py:174-177 | The multiplier `1 + 1.5·peak + 2·cologne` lies between 1 and 4.5, and it is 1 exactly off-peak outside Cologne. |
| `Collector.MultiplierValues` | data/collector.py:174-177 | The delay multiplier is 1, 2.5, 3 or 4.5. Each value occurs for exactly one of the four flag combinations. |
| `Collector.SyntheticDelay` | data/collector.py:173-177 | For a non-negative base delay, the synthetic delay lies between the base and 4.5 times the base. It is the base times the delay multiplier, and equals the base off-peak outside Cologne. |
| `Collector.ExportForModels` | data/collector.py:179-188 | The exported table has the six training columns in order and one row per draw. Each row holds the draws, the peak and bottleneck flags, and the synthetic delay. |
| `ZoneBuilder.ZoneKeysAreCities` | features/zone_builder.py:22-31 | With Düsseldorf spelled the collector's way, the zone keys are exactly the collector's eight cities in the same order. |
| `ZoneBuilder.ZoneKeysDistinct` | features/zone_builder.py:22-31 | Both the table as written and the corrected table have eight distinct zone keys. |
| `ZoneBuilder.ZonePopulations` | features/zone_builder.py:23-30 | Cologne is the fifth zone, with population weight 1.086. Every other zone has a weight of at most 0.62. |
| `ZoneBuilder.PopulationWeight` | features/zone_builder.py:77 | The population weight is non-negative, and positive for a populated zone. |
| `ZoneBuilder.AssignZoneInfluence` | features/zone_builder.py:59-81 | The influence map has one entry per zone, keyed and ordered like the zones. Each entry is that zone's decay at σ = 50 km times its population weight, with no normalisation across zones. |
| `ZoneBuilder.InfluenceBounds` | features/zone_builder.py:74-79 | Each influence lies in [0, population weight] and is positive for a populated zone. It equals the population weight at the zone centre. |
| `ZoneBuilder.InfluenceLookup` | features/zone_builder.py:64-81 | Looking up a zone name in the influence map succeeds exactly when the zone exists, and it yields that zone's own influence. |
| `ZoneBuilder.CologneDominatesAtItsCentre` | features/zone_builder.py:27 | A station on the Cologne centre gets influence 1.086 from Cologne and strictly less from every other zone. |
| `ZoneBuilder.StationCoord` | features/zone_builder.py:92-99 | A non-zero latitude keeps the station's own position, and without a longitude this is a `KeyError('longitude')`. Otherwise the station takes the centre of its zone city (Dortmund if it has none), with a `KeyError` for an unknown city. |
| `ZoneBuilder.BuildZoneFeatures` | features/zone_builder.py:88-116 | The build succeeds exactly when every station resolves, and then gives one row per station in input order with labels, position and influences. Otherwise it fails with the error of the first station that fails to resolve. |
| `ZoneBuilder.MissingCityIsLabelledUnknown` | features/zone_builder.py:97-107 | A station with neither coordinates nor zone city is placed on Dortmund's centre but labelled "Unknown". |
| `ZoneBuilder.TagWithZone` | data/collector.py:120-122 | Tagging a found station sets its zone city and keeps its coordinates. |
| `ZoneBuilder.MinimalNetworkOf` | data/collector.py:116-122 | In the minimal network, every station lacks a usable latitude and falls back to the city it was tagged with. |
| `ZoneBuilder.SourceZonesLackDuesseldorf` | features/zone_builder.py:26 | The collector's "Düsseldorf" is not a key of the zone table as written. |
| `ZoneBuilder.FirstFailureWins` | features/zone_builder.py:90-99 | If the stations before station i resolve and station i does not, the whole build fails with station i's error. |
| `ZoneBuilder.DuesseldorfFallbackFails` | features/zone_builder.py:97-99 | With the zone table as written, the minimal Düsseldorf station's lookup raises `KeyError('Düsseldorf')`, and so does the whole feature build. |
| `ZoneBuilder.MinimalStationsResolve` | features/zone_builder.py:95-99 | With corrected keys, every minimal station falls back to its own city's centre. |
| `ZoneBuilder.MinimalNetworkFeatures` | features/zone_builder.py:83-116 | With corrected keys, the feature build over the minimal network succeeds with one row per city. |
| `ZoneBuilder.CalculateZoneInteraction` | features/zone_builder.py:124-142 | The result is Ok exactly when both zones exist. Otherwise the `KeyError` names the first zone if it is missing, else the second. The record carries both names, the centre distance, and its decay at σ = 30 km. |
| `ZoneBuilder.InteractionSymmetric` | features/zone_builder.py:129-135 | Swapping the two zones keeps the distance and the strength, given a symmetric distance. |
| `ZoneBuilder.BuildInteractionMatrix` | features/zone_builder.py:144-157 | The matrix is n by n over the zones in table order. The diagonal is 0, and cell (i, j) is the σ = 30 km decay of the distance between centres i and j. |
| `ZoneBuilder.MatrixSymmetric` | features/zone_builder.py:153-157 | Under a symmetric distance, the interaction matrix is symmetric. |
| `ZoneBuilder.MatrixCellsInUnit` | features/zone_builder.py:151-157 | A cell is 0 exactly on the diagonal, and every cell is at most 1. |
| `GeoDecay.Decay` | features/zone_builder.py:52-57 | For any exp meeting the laws of the exponential, the Gaussian decay lies in (0, 1] and equals 1 at distance 0. |
| `GeoDecay.DecayMonotone` | features/zone_builder.py:52-57 | For a fixed σ, the decay never increases with distance. |
| `Features.Derive` | models/base_predictor.py:26-29 | The four derived columns exist with the stated values. `cologne_effect` is 2 × bottleneck, `peak_effect` is 1.5 × peak, and `distance_decay` is the σ = 50 decay of `distance_km`. `cologne_peak_interaction` is the element-wise product of the two effects. |
| `Features.DeriveFrame` | models/base_predictor.py:23 | Deriving works on a copy. Every stored column survives unchanged unless it is a derived one, and no column other than the four derived ones appears. |
| `Features.DeriveKeepsRaw` | models/base_predictor.py:23-29 | The five raw feature columns come through the derivation unchanged. |
| `Features.SelectedRow` | models/base_predictor.py:31-39 | Selecting the nine feature columns succeeds on a table that has them, and reads each row in feature order. |
| `Features.DerivedRow` | models/base_predictor.py:26-36 | Row k of the derived table, read in feature order, is exactly the feature row of the journey stored in row k. |
| `Features.PrepareFeatures` | models/base_predictor.py:21-39 | The result is Ok exactly when all six training columns exist. It then holds the nine feature columns in order, one row per stored row equal to that journey's feature row, and `delay_minutes` as target. Otherwise it is a `KeyError` for a missing training column. |
| `Features.InteractionOfFlags` | models/base_predictor.py:26-29 | With 0/1 flags, the interaction feature is 3 exactly on peak-hour bottleneck journeys and 0 otherwise. |
| `Features.DecayFeature` | models/base_predictor.py:28 | The decay feature lies in (0, 1] and is 1 at distance 0. |
| `Features.ExportedRowsPrepare` | data/collector.py:166-186 | The exported table always prepares without error. A prepared row's interaction feature is 3 exactly when that draw was at a peak hour through Cologne. |
| `GaussianModel.NewModel` | models/gaussian_model.py:25-28 | A new model records whether a zone matrix was given and has nothing fitted. |
| `GaussianModel.WithKernel` | models/gaussian_model.py:35-36 | `cologne_kernel` = 2 × bottleneck is written exactly when a zone matrix is loaded and the bottleneck column exists. Every other column is unchanged. |
| `GaussianModel.WithDecay` | models/gaussian_model.py:39-41 | `distance_decay` is recomputed from the input's `distance_km` when that column exists, overwriting any old one. Otherwise the table is unchanged. |
| `GaussianModel.Augment` | models/gaussian_model.py:32-41 | Augmentation keeps the height. It appends each kernel label unless that label already exists. |
| `GaussianModel.AugmentColumns` | models/gaussian_model.py:49-56 | The augmented table holds the kernel and decay values that `predict` writes. With neither step applicable, it is the input itself. |
| `GaussianModel.AugmentFrame` | models/gaussian_model.py:32 | Augmentation works on a copy. Every other column survives unchanged, and nothing but the two kernel columns is added. |
| `GaussianModel.Fit` | models/gaussian_model.py:30-46 | After `fit`, the model is fitted on the augmented training features and records the augmented column labels. |
| `GaussianModel.Predict` | models/gaussian_model.py:48-58 | `predict` fails exactly when nothing is fitted. Otherwise it applies the fitted Ridge to the input after the same augmentation. |
| `GaussianModel.Score` | models/gaussian_model.py:60-61 | `score` is R² of the targets against the model's own predictions, and it fails as `predict` does. |
| `GaussianModel.AsPredictor` | models/training_pipeline.py:64-66 | The fitted model as an ensemble member returns exactly what `predict` returns, on every table. |
| `GaussianModel.FitPredictColumnsAgree` | models/gaussian_model.py:30-58 | For a table with the training labels, `predict` after `fit` never fails and passes the Ridge exactly the columns it was fitted on. |
| `GaussianModel.UnfittedFails` | models/gaussian_model.py:27 | `predict` and `score` on a fresh model fail. |
| `GaussianModel.FittedPredictorPreservesRows` | models/gaussian_model.py:44-58 | A fitted model predicts one value per input row. |
| `GaussianModel.AugmentFeatureMatrix` | models/gaussian_model.py:39-41 | On a nine-column feature matrix whose decay column is already consistent, augmentation writes the same decay values back. It adds the kernel column at the end exactly when a zone matrix is loaded. |
| `GaussianModel.PreparedDecayConsistent` | models/base_predictor.py:28 | In every prepared row, `distance_decay` is the decay of that row's `distance_km`. |
| `GaussianModel.AugmentPreparedFeatures` | models/gaussian_model.py:54-56 | On prepared features, the model recomputes `distance_decay` to exactly the stored values. The labels are the nine features, plus the kernel when a zone matrix is loaded. |
| `Ensemble.Accumulate` | models/ensemble_methods.py:12-14 | The loop succeeds exactly when every model has a weight and (with any model left) the total is non-zero. Each sum is the running value plus Σ weight/total × prediction. Otherwise there is a `KeyError` for a model without a weight, or division by zero once a weight is found and the total is 0. |
| `Ensemble.PredictEnsemble` | models/ensemble_methods.py:7-16 | Each prediction is Σ over models of weight/total × that model's prediction, and it is 0 with no models. A missing weight is a `KeyError` naming a model, and a zero total with a model present is division by zero. |
| `Ensemble.ZeroTotalFails` | models/ensemble_methods.py:10-13 | All-zero weights make the ensemble fail with division by zero. |
| `Ensemble.ZeroDivisionIffAllZero` | models/ensemble_methods.py:10-13 | With non-negative weights, the ensemble fails exactly when every weight is 0, and then with division by zero. |
| `Ensemble.AccumulateScaled` | models/ensemble_methods.py:12-14 | Scaling every weight and the total by the same non-zero factor leaves the loop's outcome unchanged. |
| `Ensemble.ScaleInvariant` | models/ensemble_methods.py:10-14 | Only the ratios of the weights matter. Scaling all weights by a non-zero factor leaves every outcome unchanged, errors included. |
| `Ensemble.ConvexCombination` | models/ensemble_methods.py:7-16 | With non-negative weights of positive total, every ensemble prediction lies within the range of the models' own predictions. |
| `Ensemble.SingleWeightSelects` | models/ensemble_methods.py:12-14 | When one model carries all the weight, the ensemble predicts exactly what that model predicts. |
| `Ensemble.SingleJourneyFrame` | models/ensemble_methods.py:20-30 | The single-journey frame has one row under the nine feature labels. |
| `Ensemble.SingleJourneyRow` | models/ensemble_methods.py:26-29 | The single-journey row equals the batch feature row of the same journey. |
| `Ensemble.BatchMatchesSingle` | models/base_predictor.py:26-36 | Every row of the prepared batch features equals the single-journey frame built for that row's journey. |
| `Ensemble.OneRowPreparesToSingle` | models/ensemble_methods.py:20-30 | A one-row training table prepares to exactly the single-journey frame of its journey. |
| `Ensemble.PredictDelay` | models/ensemble_methods.py:18-31 | `predict_delay` is the weighted sum of the models' predictions on the journey's frame, with the same error cases as `predict_ensemble`. |
| `Ensemble.DelayMatchesBatch` | models/ensemble_methods.py:31 | For a journey stored as a one-row table, `predict_delay` equals the batch ensemble prediction on its prepared features, errors included. |
| `Ensemble.DelayWithinModels` | models/ensemble_methods.py:18-31 | With non-negative weights of positive total, a journey's delay lies within the models' own predictions for it. |
| `TrainingPipeline.Clamp` | models/training_pipeline.py:49 | `max(0, score)` is non-negative and at least the score. It is 0 exactly for a score ≤ 0 and the score itself otherwise. |
| `TrainingPipeline.RawWeights` | models/training_pipeline.py:48-66 | The raw weights are keyed xgb, rf, gaussian in insertion order and are non-negative. They total 0 exactly when no model scores above 0. |
| `TrainingPipeline.Normalize` | models/training_pipeline.py:68-72 | Normalising keeps the keys. With a positive total, each weight is divided by it. Otherwise the weights are left as they are. |
| `TrainingPipeline.NormalizedSumToOne` | models/training_pipeline.py:69-72 | Normalised non-negative weights with a positive total lie in [0, 1] and sum to 1. |
| `TrainingPipeline.NormalizeKeepsOrder` | models/training_pipeline.py:71-72 | Normalisation keeps the order between any two weights, in both directions. |
| `TrainingPipeline.NormalizeIsScaling` | models/training_pipeline.py:70-72 | Normalisation multiplies every weight by the same positive factor, 1/total. |
| `TrainingPipeline.NormalizeKeepsPredictions` | models/training_pipeline.py:68-72 | Normalising the weights changes no ensemble prediction. |
| `TrainingPipeline.OneSurvivorGetsAllWeight` | models/training_pipeline.py:66-72 | With two scores ≤ 0 and the Gaussian model at 0.4, the weights become 0, 0, 1. |
| `DataSplit.TrainTestSplit` | models/training_pipeline.py:28-33 | A split of n rows with share f succeeds exactly when the lengths agree, 0 < f < 1 and ⌈f·n⌉ < n. Otherwise it is a `ValueError`. It holds out ⌈f·n⌉ rows and keeps n − ⌈f·n⌉, and each part holds the input rows and targets at its recorded positions. |
| `DataSplit.SplitCoversRows` | models/training_pipeline.py:28-33 | Every input row lands in exactly one of the two parts. |
| `TrainingPipeline.BothSplitsKeepRows` | models/training_pipeline.py:28-33 | Holding out ⌈0.3·n⌉ rows and then ⌈0.5·m⌉ of those m leaves both kept parts non-empty exactly when n ≥ 4. |
| `TrainingPipeline.Partition` | models/training_pipeline.py:28-33 | Partitioning succeeds exactly when there are at least four rows (with as many targets), and is a `ValueError` otherwise. Training has n − ⌈0.3·n⌉ rows. Of the m = ⌈0.3·n⌉ held-out rows, ⌈0.5·m⌉ are test and the rest validation. |
| `TrainingPipeline.PartitionCoversRows` | models/training_pipeline.py:28-33 | Every prepared row lands in exactly one of training, validation and test. |
| `TrainingPipeline.PartitionRows` | models/training_pipeline.py:28-33 | Each partition holds the prepared rows and targets at its recorded positions. |
| `TrainingPipeline.ThousandJourneys` | models/training_pipeline.py:28-33 | The 1000 exported journeys (data/collector.py:158) split into 700 training, 150 validation and 150 test rows. |
| `TrainingPipeline.FitGaussian` | models/training_pipeline.py:64-65 | The Gaussian model keeps the given zone-matrix flag. Its Ridge is fitted on the augmented training features and training targets, and it records the augmented training labels. |
| `TrainingPipeline.Members` | models/training_pipeline.py:48-64 | The model dict is keyed xgb, rf, gaussian in insertion order. |
| `TrainingPipeline.ValidationScores` | models/training_pipeline.py:49-66 | Each model's score is R² on the validation partition, for the model fitted on the training partition. |
| `TrainingPipeline.TrainOn` | models/training_pipeline.py:35-75 | All models are fitted on the training partition. The weights are the normalised clamped validation scores, keyed like the models and non-negative. They sum to 1 (each at most 1) when some model scores above 0, and are all 0 otherwise. The test partition is returned. |
| `TrainingPipeline.TrainEnsemble` | models/training_pipeline.py:25-75 | Training succeeds exactly when the stored table has the six training columns and at least four rows. It then trains on the partitions of the prepared features and target. A missing training column is its `KeyError`, and a table of 0 to 3 rows is the split's `ValueError`. |
| `TrainingPipeline.TrainedWeights` | models/training_pipeline.py:66-72 | The trained weights are non-negative and keyed like the models. They sum to 1 when some model scores above 0, and are all 0 otherwise. |
| `TrainingPipeline.NoSkillDividesByZero` | models/training_pipeline.py:68-72 | Under the trained weights, the ensemble fails (with division by zero) exactly when no model scores above 0. |
| `TrainingPipeline.SurvivorDecides` | models/training_pipeline.py:68-72 | With only the Gaussian model scoring above 0, the ensemble predicts exactly the Gaussian model's predictions. |
| `TrainingPipeline.TrainedAligned` | models/training_pipeline.py:47-65 | Every trained model predicts one value per row of any table. |
| `TrainingPipeline.LearnersAreSatisfiable` | models/training_pipeline.py:37-65 | A fitter whose predictor answers one value per row meets `FitterLaws`, and learners built from it meet `LearnersLaws`. |
| `TrainingPipeline.TrainedEnsembleFailsIffNoSkill` | models/training_pipeline.py:49-72 | The trained ensemble fails on a query exactly when all three validation scores are ≤ 0, and then with division by zero. |

## Left out

- Floating point: all arithmetic is on exact reals. NaN handling is not modelled; this includes a NaN `zone_city` or latitude in the network file and NaN scores. `np.round(delay_minutes, 1)` in the export is not modelled either: the exported delay is the unrounded product.
- Random generation (`np.random` draws, `random_state=42`): the draws and the permutation that seeds `train_test_split` are parameters. The split's sizes, its `ValueError` and how its parts cover the rows are modelled. ⌈f·n⌉ is computed on exact reals, and the float rounding of `test_size * n` is not modelled.
- The internals of `np.exp`, the haversine formula, XGBoost, random forests, Ridge and `r2_score`. They are parameters, constrained only by the stated laws, so their constants (the Earth radius of 6371 km, the Ridge α of 1.0, the regressors' hyper-parameters) do not appear.
- File and network I/O: reading and writing CSV files, the live API in `search_station`, logging, and `time.sleep`. `build_rhine_ruhr_network` is modelled only for the minimal station list, where each city's search finds its own placeholder station (`ZoneBuilder.MinimalNetworkOf`).
- `get_delay_statistics`, `models/evaluation.py`, `models/delay_predictor.py`, `main.py` and the scripts at the top level are not part of this model.
- Calling `predict` or `score` before `fit` fails in Python with an `AttributeError` on `None`. The model names that error `NotFitted` and does not model the exception type.
- The unused `coefficients` field of the Gaussian model (gaussian_model.py:28).
- `BasePredictor.__init__` (base_predictor.py:11-16) only loads files. The weights dict it starts empty is the input of `Ensemble.PredictEnsemble`, which covers every weight dict, the empty one included.
- `Features.PrepareFeatures`: when both `time_of_day` and `day_of_week` are missing, pandas names both in one `KeyError`. The model reports one missing training column.
- `ZoneBuilder.BuildInteractionMatrix`: `build_interaction_matrix` returns a DataFrame indexed and labelled by zone name. The model returns the bare matrix, and row and column i belong to the i-th zone of the table.
- `Collector.Lower`: only ASCII letters are lower-cased. `str.lower()` also lower-cases non-ASCII capitals, and the city names contain none.
- Copies (`df.copy()`, `X.copy()`) hold by construction, because tables are values: the lemmas `Features.DeriveFrame` and `GaussianModel.AugmentFrame` state what the copy keeps.
- The feature-name check sklearn performs at `predict` time is not modelled. `GaussianModel.FitPredictColumnsAgree` shows that, on tables with the training labels, the columns at fit and at predict time agree.
- Python dicts are modelled as entry lists whose keys are distinct. Members that look keys up by position require that distinctness (e.g. `ZoneBuilder.BuildInteractionMatrix`), which every Python dict has.

## Findings

| source | as written | input that shows it | evidently intended | confidence | as-written member | corrected member |
|---|---|---|---|---|---|---|
| features/zone_builder.py:26 | The Düsseldorf zone key is the mis-encoded "D√ºsseldorf", while data/collector.py:33 tags stations with "Düsseldorf". | The minimal station list: station "Düsseldorf Hbf" has latitude 0.0 and zone city "Düsseldorf". The fallback at features/zone_builder.py:97-99 raises `KeyError('Düsseldorf')`, which aborts `build_zone_features`. | The key is spelled "Düsseldorf", so that every collector city resolves to its own zone centre. | not executed | `ZoneBuilder.DuesseldorfFallbackFails` | `ZoneBuilder.MinimalStationsResolve` |

=== FILE: arith.dfy ===
/** Facts about real division and products used by the weighting proofs. */
module Arith {
  import opened Tables

  lemma DivAdd(a: real, b: real, t: real)
    requires t != 0.0
    ensures a / t + b / t == (a + b) / t
  {
  }

  lemma DivSelf(t: real)
    requires t != 0.0
    ensures t / t == 1.0
  {
  }

  lemma DivScale(w: real, t: real, c: real)
    requires t != 0.0 && c != 0.0
    ensures Product(c, w) / Product(c, t) == w / t
  {
  }

  lemma ProductZero(c: real, t: real)
    requires c != 0.0
    ensures Product(c, t) == 0.0 <==> t == 0.0
  {
  }

  lemma Distrib(c: real, a: real, b: real)
    ensures c * (a + b) == c * a + c * b
  {
  }

  lemma ProductBounds(c: real, p: real, lo: real, hi: real)
    requires c >= 0.0 && lo <= p <= hi
    ensures c * lo <= Product(c, p) <= c * hi
  {
  }

  lemma DivBounds(w: real, t: real)
    requires 0.0 <= w <= t && t > 0.0
    ensures 0.0 <= w / t <= 1.0
  {
  }

  lemma DivAsProduct(w: real, t: real)
    requires t > 0.0
    ensures w / t == Product(1.0 / t, w)
    ensures 1.0 / t > 0.0
  {
  }

  /** Dividing two values by the same positive t keeps their proportion and their order. */
  lemma Rescaled(a: real, b: real, t: real, ra: real, rb: real)
    requires t > 0.0 && ra == a / t && rb == b / t
    ensures a <= b <==> ra <= rb
  {
  }

  /** Every element divided by t. */
  function DivAll(xs: seq<real>, t: real): (r: seq<real>)
    requires t != 0.0
    ensures |r| == |xs|
    ensures forall i :: 0 <= i < |xs| ==> r[i] == xs[i] / t
  {
    seq(|xs|, i requires 0 <= i < |xs| => xs[i] / t)
  }

  /** Dividing every summand by t divides the sum by t. */
  lemma {:induction false} SumDivAll(xs: seq<real>, t: real)
    requires t != 0.0
    ensures Sum(DivAll(xs, t)) == Sum(xs) / t
    decreases |xs|
  {
    if xs != [] {
      assert DivAll(xs, t)[1..] == DivAll(xs[1..], t);
      SumDivAll(xs[1..], t);
      DivAdd(xs[0], Sum(xs[1..]), t);
    }
  }

  /** A sum of non-negative terms is non-negative, and zero exactly when every term is. */
  lemma {:induction false} SumNonneg(xs: seq<real>)
    requires forall i :: 0 <= i < |xs| ==> xs[i] >= 0.0
    ensures Sum(xs) >= 0.0
    ensures Sum(xs) == 0.0 <==> forall i :: 0 <= i < |xs| ==> xs[i] == 0.0
    decreases |xs|
  {
    if xs != [] {
      SumNonneg(xs[1..]);
      assert forall i :: 1 <= i < |xs| ==> xs[i] == xs[1..][i - 1];
    }
  }

  /** A sum whose terms are all zero but the j-th equals the j-th term. */
  lemma {:induction false} SumSingle(xs: seq<real>, j: nat)
    requires j < |xs|
    requires forall i :: 0 <= i < |xs| && i != j ==> xs[i] == 0.0
    ensures Sum(xs) == xs[j]
    decreases |xs|
  {
    if j == 0 {
      SumZero(xs[1..]);
    } else {
      SumSingle(xs[1..], j - 1);
    }
  }

  lemma {:induction false} SumZero(xs: seq<real>)
    requires forall i :: 0 <= i < |xs| ==> xs[i] == 0.0
    ensures Sum(xs) == 0.0
    decreases |xs|
  {
    if xs != [] {
      SumZero(xs[1..]);
    }
  }

  /** Non-negative values divided by their positive sum are weights in [0, 1] that sum to 1. */
  lemma NormalisedSumsToOne(xs: seq<real>)
    requires forall i :: 0 <= i < |xs| ==> xs[i] >= 0.0
    requires Sum(xs) > 0.0
    ensures Sum(DivAll(xs, Sum(xs))) == 1.0
    ensures forall i :: 0 <= i < |xs| ==> 0.0 <= DivAll(xs, Sum(xs))[i] <= 1.0
  {
    var t := Sum(xs);
    SumDivAll(xs, t);
    DivSelf(t);
    forall i | 0 <= i < |xs| ensures 0.0 <= DivAll(xs, t)[i] <= 1.0 {
      SumBoundsTerm(xs, i);
      DivBounds(xs[i], t);
    }
  }

  /** A non-negative term is at most the sum of non-negative terms. */
  lemma {:induction false} SumBoundsTerm(xs: seq<real>, i: nat)
    requires forall j :: 0 <= j < |xs| ==> xs[j] >= 0.0
    requires i < |xs|
    ensures xs[i] <= Sum(xs)
    decreases |xs|
  {
    SumNonneg(xs[1..]);
    if i > 0 {
      SumBoundsTerm(xs[1..], i - 1);
    }
  }
}

=== FILE: collector.dfy ===
/**
 * The deterministic rules of the data collector: the fallback station list and
 * the peak-hour and delay rules used when exporting synthetic training data.
 * Random draws are inputs here; only what is computed from them is modelled.
 */
module Collector {
  import opened Tables
  import opened Schema

  /** The Rhine-Ruhr cities, in the collector's order. */
  const RhineRuhrCities: seq<string> :=
    ["Dortmund", "Essen", "Duisburg", "D\U{00FC}sseldorf", "Cologne", "Bonn", "Bochum", "Wuppertal"]

  /** One record of the station cache. */
  datatype StationRecord = StationRecord(name: string, city: string, id: string, latitude: real, longitude: real)

  /** An ASCII capital becomes the small letter at the same place in the alphabet; any other character is kept. */
  function LowerChar(c: char): (r: char)
    ensures 'A' <= c <= 'Z' ==> 'a' <= r <= 'z' && r as int - 'a' as int == c as int - 'A' as int
    ensures !('A' <= c <= 'Z') ==> r == c
  {
    if 'A' <= c <= 'Z' then (c as int + 32) as char else c
  }

  /** `str.lower()` on the ASCII letters; every other character is kept. */
  function Lower(s: string): (r: string)
    ensures |r| == |s|
    ensures forall i :: 0 <= i < |s| ==> r[i] == LowerChar(s[i])
    ensures forall i :: 0 <= i < |r| ==> !('A' <= r[i] <= 'Z')
    ensures forall i :: 0 <= i < |s| && !('A' <= s[i] <= 'Z') ==> r[i] == s[i]
  {
    seq(|s|, i requires 0 <= i < |s| => LowerChar(s[i]))
  }

  /** Lower-casing twice is lower-casing once. */
  lemma LowerIdempotent(s: string)
    ensures Lower(Lower(s)) == Lower(s)
  {
  }

  /** The ids of the minimal stations: each city name with its capital made small. */
  lemma CityIds()
    ensures Lower("Dortmund") == "dortmund" && Lower("Essen") == "essen"
    ensures Lower("Duisburg") == "duisburg" && Lower("D\U{00FC}sseldorf") == "d\U{00FC}sseldorf"
    ensures Lower("Cologne") == "cologne" && Lower("Bonn") == "bonn"
    ensures Lower("Bochum") == "bochum" && Lower("Wuppertal") == "wuppertal"
  {
  }

  /** `_create_minimal_stations`: one placeholder record per city, without coordinates. */
  function CreateMinimalStations(cities: seq<string>): (r: seq<StationRecord>)
    ensures |r| == |cities|
    ensures forall i :: 0 <= i < |r| ==> r[i].city == cities[i] && r[i].name == cities[i] + " Hbf"
    ensures forall i :: 0 <= i < |r| ==> r[i].latitude == 0.0 && r[i].longitude == 0.0
    ensures forall i :: 0 <= i < |r| ==> r[i].id == Lower(cities[i])
  {
    if cities == [] then []
    else [StationRecord(cities[0] + " Hbf", cities[0], Lower(cities[0]), 0.0, 0.0)]
         + CreateMinimalStations(cities[1..])
  }

  /** Peak hours are 7-9 and 16-18, both ends included: the six hours listed. */
  predicate IsPeakHour(h: int)
    ensures IsPeakHour(h) <==> h in {7, 8, 9, 16, 17, 18}
  {
    (7 <= h <= 9) || (16 <= h <= 18)
  }

  lemma PeakHoursPerDay()
    ensures (set h | 0 <= h < 24 && IsPeakHour(h)) == {7, 8, 9, 16, 17, 18}
    ensures |set h | 0 <= h < 24 && IsPeakHour(h)| == 6
  {
    var peak := set h | 0 <= h < 24 && IsPeakHour(h);
    assert peak == {7, 8, 9, 16, 17, 18} by {
      forall h ensures h in peak <==> h in {7, 8, 9, 16, 17, 18} {
      }
    }
  }

  /** A boolean exported as `astype(int)`. */
  function Flag(b: bool): (r: real)
    ensures r == 0.0 || r == 1.0
    ensures r == 1.0 <==> b
  {
    if b then 1.0 else 0.0
  }

  /** `1 + peak_factor + cologne_factor`. */
  function DelayMultiplier(peak: bool, cologne: bool): (m: real)
    ensures 1.0 <= m <= 4.5
    ensures m == 1.0 <==> !peak && !cologne
  {
    1.0 + 1.5 * Flag(peak) + 2.0 * Flag(cologne)
  }

  /** The multiplier takes exactly the four values 1, 2.5, 3 and 4.5, one per flag combination. */
  lemma MultiplierValues(peak: bool, cologne: bool)
    ensures DelayMultiplier(peak, cologne) == 1.0 <==> !peak && !cologne
    ensures DelayMultiplier(peak, cologne) == 2.5 <==> peak && !cologne
    ensures DelayMultiplier(peak, cologne) == 3.0 <==> !peak && cologne
    ensures DelayMultiplier(peak, cologne) == 4.5 <==> peak && cologne
  {
  }

  /** `base_delay * (1 + peak_factor + cologne_factor)`, before rounding. */
  function SyntheticDelay(base: real, peak: bool, cologne: bool): (d: real)
    ensures base >= 0.0 ==> base <= d && 0.0 <= d
    ensures base >= 0.0 ==> d <= 4.5 * base
    ensures !peak && !cologne ==> d == base
    ensures d == base * DelayMultiplier(peak, cologne)
  {
    base * DelayMultiplier(peak, cologne)
  }

  /** One exported sample: the six training columns in order, the synthetic delay last. */
  function ExportedRecord(distance: real, timeOfDay: int, dayOfWeek: int, isCologne: bool, baseDelay: real): (r: seq<real>)
    ensures |r| == |TrainingColumns|
  {
    [distance, timeOfDay as real, dayOfWeek as real,
     Flag(IsPeakHour(timeOfDay)), Flag(isCologne),
     SyntheticDelay(baseDelay, IsPeakHour(timeOfDay), isCologne)]
  }

  /**
   * `export_for_models` applied to given draws: distances, hours, weekdays,
   * bottleneck draws and base delays (one entry per sample).
   */
  function ExportForModels(distance: seq<real>, timeOfDay: seq<int>, dayOfWeek: seq<int>,
                           isCologne: seq<bool>, baseDelay: seq<real>): (t: Table)
    requires |timeOfDay| == |distance| && |dayOfWeek| == |distance|
    requires |isCologne| == |distance| && |baseDelay| == |distance|
    ensures t.names == TrainingColumns && t.height == |distance|
    ensures forall i :: 0 <= i < |distance| ==>
      Row(t, i) == [distance[i], timeOfDay[i] as real, dayOfWeek[i] as real,
                    Flag(IsPeakHour(timeOfDay[i])), Flag(isCologne[i]),
                    SyntheticDelay(baseDelay[i], IsPeakHour(timeOfDay[i]), isCologne[i])]
  {
    var n := |distance|;
    FromRows(TrainingColumns,
      seq(n, i requires 0 <= i < n => ExportedRecord(distance[i], timeOfDay[i], dayOfWeek[i], isCologne[i], baseDelay[i])))
  }
}

=== FILE: data_split.dfy ===
/**
 * scikit-learn's `train_test_split(X, y, test_size=f, random_state=42)`: the
 * rows are shuffled by a permutation drawn from the fixed seed, the first
 * ⌈f·n⌉ shuffled rows are held out and the remaining ones are kept. A split
 * that would keep no row is refused with a ValueError. The seeded permutation
 * is a parameter.
 */
module DataSplit {
  import opened Results
  import opened Tables

  /** Each of the positions 0 .. n-1 exactly once. */
  predicate IsPermutation(p: seq<nat>, n: nat) {
    && |p| == n
    && (forall i :: 0 <= i < |p| ==> p[i] < n)
    && (forall i, j :: 0 <= i < j < |p| ==> p[i] != p[j])
  }

  function Identity(n: nat): (p: seq<nat>)
    ensures IsPermutation(p, n)
  {
    seq(n, i requires 0 <= i < n => i)
  }

  /** `rng.permutation(n)` of a generator seeded with 42: a fixed permutation for every row count. */
  type Shuffle = f: nat -> seq<nat> | forall n: nat :: IsPermutation(f(n), n) witness Identity

  /** A share strictly between 0 and 1 of n rows is between 0 and n. */
  lemma ShareOfCount(n: nat, f: real)
    requires 0.0 < f < 1.0
    ensures 0.0 <= f * n as real <= n as real
  {
    assert n as real - f * n as real == (1.0 - f) * n as real;
  }

  /** The ceiling of a real between 0 and n: the least whole number at or above it. */
  function Ceil(x: real, n: nat): (h: nat)
    requires 0.0 <= x <= n as real
    ensures x <= h as real < x + 1.0
    ensures h <= n
  {
    if x.Floor as real == x then x.Floor else x.Floor + 1
  }

  /** `ceil(f * n)`: how many of n rows a split with test share f holds out. */
  function HeldCount(n: nat, f: real): (h: nat)
    requires 0.0 < f < 1.0
    ensures f * n as real <= h as real < f * n as real + 1.0
    ensures h <= n
  {
    ShareOfCount(n, f);
    Ceil(f * n as real, n)
  }

  /**
   * The outcome of one split: the positions of the kept and the held-out
   * rows (the index labels pandas carries along), and the rows themselves.
   */
  datatype Split = Split(kept: seq<nat>, held: seq<nat>, xKept: Table, xHeld: Table, yKept: seq<real>, yHeld: seq<real>)

  /** xPart and yPart hold the rows of x and the values of y at the positions idx, in that order. */
  predicate Takes(x: Table, y: seq<real>, idx: seq<nat>, xPart: Table, yPart: seq<real>) {
    && xPart.names == x.names && xPart.height == |idx| && |yPart| == |idx|
    && (forall k :: 0 <= k < |idx| ==> idx[k] < x.height && idx[k] < |y|)
    && (forall k :: 0 <= k < |idx| ==> Row(xPart, k) == Row(x, idx[k]) && yPart[k] == y[idx[k]])
  }

  function TrainTestSplit(shuffle: Shuffle, x: Table, y: seq<real>, f: real): (r: Result<Split>)
    ensures r.Ok? <==> |y| == x.height && 0.0 < f < 1.0 && HeldCount(x.height, f) < x.height
    ensures r.Err? ==> r.error == ValueError
    ensures r.Ok? ==> |r.value.held| == HeldCount(x.height, f) && |r.value.kept| == x.height - HeldCount(x.height, f)
    ensures r.Ok? ==> Takes(x, y, r.value.kept, r.value.xKept, r.value.yKept)
    ensures r.Ok? ==> Takes(x, y, r.value.held, r.value.xHeld, r.value.yHeld)
  {
    if |y| != x.height || !(0.0 < f < 1.0) then Err(ValueError)
    else
      var n := x.height;
      var held := HeldCount(n, f);
      if held == n then Err(ValueError)
      else
        var p := shuffle(n);
        var test, train := p[..held], p[held..];
        Ok(Split(train, test, TakeRows(x, train), TakeRows(x, test), Pick(y, train), Pick(y, test)))
  }

  /** A rotation of a permutation is a permutation. */
  lemma RotatedPermutation(p: seq<nat>, n: nat, a: nat)
    requires IsPermutation(p, n) && a <= n
    ensures IsPermutation(p[a..] + p[..a], n)
  {
    var q := p[a..] + p[..a];
    forall i, j | 0 <= i < j < |q| ensures q[i] != q[j] {
      var ii := if i < n - a then i + a else i - (n - a);
      var jj := if j < n - a then j + a else j - (n - a);
      assert q[i] == p[ii] && q[j] == p[jj] && ii != jj;
      if ii < jj {
        assert p[ii] != p[jj];
      } else {
        assert p[jj] != p[ii];
      }
    }
  }

  /** Every input row lands in exactly one of the two parts. */
  lemma SplitCoversRows(shuffle: Shuffle, x: Table, y: seq<real>, f: real)
    requires TrainTestSplit(shuffle, x, y, f).Ok?
    ensures var s := TrainTestSplit(shuffle, x, y, f).value;
      IsPermutation(s.kept + s.held, x.height)
  {
    var p := shuffle(x.height);
    var h := HeldCount(x.height, f);
    RotatedPermutation(p, x.height, h);
  }

  /** Reordering the tail of a permutation by a permutation of its positions keeps a permutation. */
  lemma ReorderTail(a: seq<nat>, b: seq<nat>, c: seq<nat>, n: nat)
    requires IsPermutation(a + b, n) && IsPermutation(c, |b|)
    ensures IsPermutation(a + Pick(b, c), n)
  {
    var ab := a + b;
    var q := a + Pick(b, c);
    forall i | 0 <= i < |q| ensures q[i] < n {
      if i >= |a| {
        assert q[i] == ab[|a| + c[i - |a|]];
      } else {
        assert q[i] == ab[i];
      }
    }
    forall i, j | 0 <= i < j < |q| ensures q[i] != q[j] {
      var ii := if i < |a| then i else |a| + c[i - |a|];
      var jj := if j < |a| then j else |a| + c[j - |a|];
      assert q[i] == ab[ii] && q[j] == ab[jj];
      if i >= |a| {
        assert c[i - |a|] != c[j - |a|];
      }
      if ii < jj {
        assert ab[ii] != ab[jj];
      } else {
        assert ab[jj] != ab[ii];
      }
    }
  }
}

=== FILE: ensemble_methods.dfy ===
/**
 * Weighted-average ensemble prediction: every model's prediction is scaled by
 * its weight over the total weight and the scaled predictions are summed.
 */
module Ensemble {
  import opened Results
  import opened Tables
  import opened GeoDecay
  import opened Schema
  import opened Features
  import opened Arith

  /** Every model returns one prediction per row of `x`. */
  predicate Aligned(models: seq<Entry<Predictor>>, x: Table) {
    forall i :: 0 <= i < |models| ==> |models[i].val(x)| == x.height
  }

  /** `sum(self.weights.values())`. */
  function TotalWeight(weights: seq<Entry<real>>): real {
    Sum(Vals(weights))
  }

  /** Every model name has a weight entry. */
  predicate AllWeighted(models: seq<Entry<Predictor>>, weights: seq<Entry<real>>) {
    forall i :: 0 <= i < |models| ==> models[i].key in Keys(weights)
  }

  /** Each model's weight divided by the total weight, in model order. */
  function Coefficients(models: seq<Entry<Predictor>>, weights: seq<Entry<real>>, total: real): (cs: seq<real>)
    requires AllWeighted(models, weights) && total != 0.0
    ensures |cs| == |models|
    ensures forall i :: 0 <= i < |models| ==> cs[i] == Get(weights, models[i].key).value / total
  {
    seq(|models|, i requires 0 <= i < |models| => Get(weights, models[i].key).value / total)
  }

  /** The reference combination for row k: the sum over models of coefficient times prediction. */
  function Mix(ps: seq<Predictor>, cs: seq<real>, x: Table, k: nat): real
    requires |cs| == |ps|
    requires forall i :: 0 <= i < |ps| ==> k < |ps[i](x)|
    decreases |ps|
  {
    if ps == [] then 0.0 else Product(cs[0], ps[0](x)[k]) + Mix(ps[1..], cs[1..], x, k)
  }

  /** `predictions += weight * prediction`, element-wise. */
  function AddScaled(acc: seq<real>, p: seq<real>, c: real): (r: seq<real>)
    requires |p| == |acc|
    ensures |r| == |acc|
    ensures forall k :: 0 <= k < |acc| ==> r[k] == acc[k] + Product(c, p[k])
  {
    seq(|acc|, k requires 0 <= k < |acc| => acc[k] + Product(c, p[k]))
  }

  /**
   * The loop of `predict_ensemble` from the current model on: look the weight
   * up (KeyError if absent), divide it by the total (ZeroDivision if the total
   * is 0), and add the scaled prediction to the running sums.
   */
  function Accumulate(models: seq<Entry<Predictor>>, weights: seq<Entry<real>>, total: real, x: Table, acc: seq<real>)
    : (r: Result<seq<real>>)
    requires Aligned(models, x) && |acc| == x.height
    ensures r.Ok? <==> AllWeighted(models, weights) && (models != [] ==> total != 0.0)
    ensures r.Ok? ==> |r.value| == x.height
    ensures r.Ok? ==> forall k :: 0 <= k < x.height ==>
      r.value[k] == acc[k] + Mix(Vals(models), Coefficients(models, weights, if models == [] then 1.0 else total), x, k)
    ensures r.Err? ==> (r.error == ZeroDivision <==> models[0].key in Keys(weights) && total == 0.0)
    ensures r.Err? && r.error != ZeroDivision ==>
      r.error.KeyError? && r.error.key in Keys(models) && r.error.key !in Keys(weights)
    decreases |models|
  {
    if models == [] then Ok(acc)
    else
      match Get(weights, models[0].key)
      case None => Err(KeyError(models[0].key))
      case Some(w) =>
        if total == 0.0 then Err(ZeroDivision)
        else
          var r := Accumulate(models[1..], weights, total, x, AddScaled(acc, models[0].val(x), w / total));
          assert Keys(models) == [models[0].key] + Keys(models[1..]);
          assert r.Ok? ==> AllWeighted(models, weights) by {
            if r.Ok? {
              forall i | 0 <= i < |models| ensures models[i].key in Keys(weights) {
                if i > 0 { assert models[i] == models[1..][i - 1]; }
              }
            }
          }
          assert AllWeighted(models, weights) ==> AllWeighted(models[1..], weights);
          if r.Ok? then
            var cs := Coefficients(models, weights, total);
            assert Vals(models)[1..] == Vals(models[1..]);
            assert cs[1..] == Coefficients(models[1..], weights, total);
            r
          else r
  }

  /**
   * `predict_ensemble`: the weighted sum of the models' predictions, each
   * weight divided by the total weight. There is no guard on the total: with
   * at least one model, a total of 0 is a division by zero.
   */
  function PredictEnsemble(models: seq<Entry<Predictor>>, weights: seq<Entry<real>>, x: Table): (r: Result<seq<real>>)
    requires Aligned(models, x)
    ensures r.Ok? <==> AllWeighted(models, weights) && (models != [] ==> TotalWeight(weights) != 0.0)
    ensures r.Ok? ==> |r.value| == x.height
    ensures r.Ok? && models != [] ==> forall k :: 0 <= k < x.height ==>
      r.value[k] == Mix(Vals(models), Coefficients(models, weights, TotalWeight(weights)), x, k)
    ensures r.Ok? && models == [] ==> forall k :: 0 <= k < x.height ==> r.value[k] == 0.0
    ensures r.Err? ==> (r.error == ZeroDivision <==> models[0].key in Keys(weights) && TotalWeight(weights) == 0.0)
    ensures r.Err? && r.error != ZeroDivision ==>
      r.error.KeyError? && r.error.key in Keys(models) && r.error.key !in Keys(weights)
  {
    var zeros := seq(x.height, k => 0.0);
    Accumulate(models, weights, TotalWeight(weights), x, zeros)
  }

  // ---- Properties of the weighting ----

  /** With at least one model whose weight is known, weights summing to 0 always fail with ZeroDivision. */
  lemma ZeroTotalFails(models: seq<Entry<Predictor>>, weights: seq<Entry<real>>, x: Table)
    requires Aligned(models, x) && models != [] && AllWeighted(models, weights)
    requires forall i :: 0 <= i < |weights| ==> weights[i].val == 0.0
    ensures PredictEnsemble(models, weights, x) == Err(ZeroDivision)
  {
    SumZero(Vals(weights));
    assert models[0].key in Keys(weights);
  }

  /** Non-negative weights divide by zero exactly when every weight is zero. */
  lemma ZeroDivisionIffAllZero(models: seq<Entry<Predictor>>, weights: seq<Entry<real>>, x: Table)
    requires Aligned(models, x) && models != [] && AllWeighted(models, weights)
    requires forall i :: 0 <= i < |weights| ==> weights[i].val >= 0.0
    ensures PredictEnsemble(models, weights, x).Err? <==> forall i :: 0 <= i < |weights| ==> weights[i].val == 0.0
    ensures PredictEnsemble(models, weights, x).Err? ==> PredictEnsemble(models, weights, x).error == ZeroDivision
  {
    SumNonneg(Vals(weights));
    assert models[0].key in Keys(weights);
  }

  /** Every weight multiplied by c. */
  function ScaleWeights(weights: seq<Entry<real>>, c: real): (r: seq<Entry<real>>)
    ensures |r| == |weights| && Keys(r) == Keys(weights)
    ensures forall i :: 0 <= i < |weights| ==> r[i].key == weights[i].key && r[i].val == Product(c, weights[i].val)
  {
    var r := seq(|weights|, i requires 0 <= i < |weights| => Entry(weights[i].key, Product(c, weights[i].val)));
    assert forall i :: 0 <= i < |r| ==> Keys(r)[i] == Keys(weights)[i];
    r
  }

  lemma ScaledTail(weights: seq<Entry<real>>, c: real)
    requires weights != []
    ensures ScaleWeights(weights, c)[1..] == ScaleWeights(weights[1..], c)
  {
    var a := ScaleWeights(weights, c)[1..];
    var b := ScaleWeights(weights[1..], c);
    forall i | 0 <= i < |a| ensures a[i] == b[i] {
      assert a[i].key == b[i].key && a[i].val == b[i].val;
    }
  }

  lemma {:induction false} ScaledLookup(weights: seq<Entry<real>>, c: real, k: string)
    ensures Get(ScaleWeights(weights, c), k).Some? <==> Get(weights, k).Some?
    ensures Get(weights, k).Some? ==> Get(ScaleWeights(weights, c), k).value == Product(c, Get(weights, k).value)
    decreases |weights|
  {
    var sw := ScaleWeights(weights, c);
    if weights != [] {
      if weights[0].key == k {
        assert sw != [] && sw[0].key == k && sw[0].val == Product(c, weights[0].val);
        assert Get(sw, k) == Some(sw[0].val);
        assert Get(weights, k) == Some(weights[0].val);
      } else {
        assert sw != [] && sw[0].key != k;
        assert Get(sw, k) == Get(sw[1..], k);
        assert Get(weights, k) == Get(weights[1..], k);
        ScaledTail(weights, c);
        ScaledLookup(weights[1..], c, k);
      }
    }
  }

  lemma {:induction false} ScaledTotal(weights: seq<Entry<real>>, c: real)
    ensures TotalWeight(ScaleWeights(weights, c)) == Product(c, TotalWeight(weights))
    decreases |weights|
  {
    if weights != [] {
      ScaledTail(weights, c);
      assert Vals(ScaleWeights(weights, c))[1..] == Vals(ScaleWeights(weights[1..], c));
      assert Vals(weights)[1..] == Vals(weights[1..]);
      ScaledTotal(weights[1..], c);
      Distrib(c, weights[0].val, TotalWeight(weights[1..]));
    }
  }

  /** The loop computes the same sums when every weight and the total are scaled alike. */
  lemma {:induction false} AccumulateScaled(models: seq<Entry<Predictor>>, weights: seq<Entry<real>>, total: real,
                                            c: real, x: Table, acc: seq<real>)
    requires Aligned(models, x) && |acc| == x.height && c != 0.0
    ensures Accumulate(models, ScaleWeights(weights, c), Product(c, total), x, acc) == Accumulate(models, weights, total, x, acc)
    decreases |models|
  {
    if models != [] {
      ScaledLookup(weights, c, models[0].key);
      ProductZero(c, total);
      if Get(weights, models[0].key).Some? && total != 0.0 {
        var w := Get(weights, models[0].key).value;
        DivScale(w, total, c);
        assert Product(c, total) != 0.0;
        AccumulateScaled(models[1..], weights, total, c, x, AddScaled(acc, models[0].val(x), w / total));
      }
    }
  }

  /**
   * Only the ratios of the weights matter: scaling them all by a non-zero
   * factor leaves every outcome of the ensemble unchanged, errors included.
   */
  lemma ScaleInvariant(models: seq<Entry<Predictor>>, weights: seq<Entry<real>>, c: real, x: Table)
    requires Aligned(models, x) && c != 0.0
    ensures PredictEnsemble(models, ScaleWeights(weights, c), x) == PredictEnsemble(models, weights, x)
  {
    ScaledTotal(weights, c);
    AccumulateScaled(models, weights, TotalWeight(weights), c, x, seq(x.height, k => 0.0));
  }

  /** The weights are given for exactly the models, in the same order, under distinct names. */
  predicate Matching(models: seq<Entry<Predictor>>, weights: seq<Entry<real>>) {
    Keys(weights) == Keys(models) && Distinct(Keys(models))
  }

  /** With matching names, the coefficient of each model is its own weight over the total. */
  lemma MatchingCoefficients(models: seq<Entry<Predictor>>, weights: seq<Entry<real>>, total: real)
    requires Matching(models, weights) && total != 0.0
    ensures AllWeighted(models, weights)
    ensures Coefficients(models, weights, total) == DivAll(Vals(weights), total)
  {
    forall i | 0 <= i < |models| ensures Get(weights, models[i].key) == Some(weights[i].val) {
      assert Keys(weights)[i] == Keys(models)[i];
      GetAt(weights, i);
    }
  }

  /** The sum of non-negative coefficients times predictions lies between lo and hi times the coefficient sum. */
  lemma {:induction false} MixBounds(ps: seq<Predictor>, cs: seq<real>, x: Table, k: nat, lo: real, hi: real)
    requires |cs| == |ps|
    requires forall i :: 0 <= i < |ps| ==> k < |ps[i](x)|
    requires forall i :: 0 <= i < |cs| ==> cs[i] >= 0.0
    requires forall i :: 0 <= i < |ps| ==> lo <= ps[i](x)[k] <= hi
    ensures lo * Sum(cs) <= Mix(ps, cs, x, k) <= hi * Sum(cs)
    decreases |ps|
  {
    if ps != [] {
      MixBounds(ps[1..], cs[1..], x, k, lo, hi);
      ProductBounds(cs[0], ps[0](x)[k], lo, hi);
      Distrib(lo, cs[0], Sum(cs[1..]));
      Distrib(hi, cs[0], Sum(cs[1..]));
    }
  }

  /**
   * With non-negative weights of positive total, the ensemble is a convex
   * combination: every prediction lies within the range of the models' own.
   */
  lemma ConvexCombination(models: seq<Entry<Predictor>>, weights: seq<Entry<real>>, x: Table, k: nat, lo: real, hi: real)
    requires Aligned(models, x) && Matching(models, weights) && k < x.height
    requires forall i :: 0 <= i < |weights| ==> weights[i].val >= 0.0
    requires TotalWeight(weights) > 0.0
    requires forall i :: 0 <= i < |models| ==> lo <= models[i].val(x)[k] <= hi
    ensures PredictEnsemble(models, weights, x).Ok?
    ensures lo <= PredictEnsemble(models, weights, x).value[k] <= hi
  {
    var total := TotalWeight(weights);
    MatchingCoefficients(models, weights, total);
    var cs := Coefficients(models, weights, total);
    NormalisedSumsToOne(Vals(weights));
    MixBounds(Vals(models), cs, x, k, lo, hi);
  }

  /** Coefficients that are 1 for model j and 0 elsewhere select model j. */
  lemma {:induction false} MixSelects(ps: seq<Predictor>, cs: seq<real>, x: Table, k: nat, j: nat)
    requires |cs| == |ps| && j < |ps|
    requires forall i :: 0 <= i < |ps| ==> k < |ps[i](x)|
    requires cs[j] == 1.0 && forall i :: 0 <= i < |cs| && i != j ==> cs[i] == 0.0
    ensures Mix(ps, cs, x, k) == ps[j](x)[k]
    decreases |ps|
  {
    if j == 0 {
      MixZero(ps[1..], cs[1..], x, k);
    } else {
      MixSelects(ps[1..], cs[1..], x, k, j - 1);
    }
  }

  lemma {:induction false} MixZero(ps: seq<Predictor>, cs: seq<real>, x: Table, k: nat)
    requires |cs| == |ps|
    requires forall i :: 0 <= i < |ps| ==> k < |ps[i](x)|
    requires forall i :: 0 <= i < |cs| ==> cs[i] == 0.0
    ensures Mix(ps, cs, x, k) == 0.0
    decreases |ps|
  {
    if ps != [] {
      MixZero(ps[1..], cs[1..], x, k);
    }
  }

  lemma SelectingCoefficients(ws: seq<real>, j: nat)
    requires j < |ws| && ws[j] != 0.0
    requires forall i :: 0 <= i < |ws| && i != j ==> ws[i] == 0.0
    ensures DivAll(ws, ws[j])[j] == 1.0
    ensures forall i :: 0 <= i < |ws| && i != j ==> DivAll(ws, ws[j])[i] == 0.0
  {
    DivSelf(ws[j]);
  }

  /** When a single model carries all the weight, the ensemble predicts exactly what that model predicts. */
  lemma SingleWeightSelects(models: seq<Entry<Predictor>>, weights: seq<Entry<real>>, x: Table, j: nat)
    requires Aligned(models, x) && Matching(models, weights) && j < |weights|
    requires weights[j].val != 0.0
    requires forall i :: 0 <= i < |weights| && i != j ==> weights[i].val == 0.0
    ensures PredictEnsemble(models, weights, x).Ok?
    ensures PredictEnsemble(models, weights, x).value == models[j].val(x)
  {
    var total := TotalWeight(weights);
    SumSingle(Vals(weights), j);
    MatchingCoefficients(models, weights, total);
    var cs := Coefficients(models, weights, total);
    SelectingCoefficients(Vals(weights), j);
    var r := PredictEnsemble(models, weights, x).value;
    forall k | 0 <= k < x.height ensures r[k] == models[j].val(x)[k] {
      MixSelects(Vals(models), cs, x, k, j);
    }
  }

  // ---- The single-journey path ----

  /** The nine values `predict_delay` writes for a journey, each computed afresh from the raw inputs. */
  function SingleJourneyValues(exp: real -> real, j: Journey): (r: seq<real>)
    ensures |r| == |FeatureColumns|
  {
    var cologneEffect := j.isCologneBottleneck * 2.0;
    var peakEffect := j.isPeakHour * 1.5;
    [j.distanceKm, j.timeOfDay, j.dayOfWeek, j.isPeakHour, j.isCologneBottleneck,
     cologneEffect, peakEffect, exp(-Pow(j.distanceKm, 2) / (2.0 * Pow(50.0, 2))),
     Product(cologneEffect, peakEffect)]
  }

  /** The one-row frame `predict_delay` builds from a raw journey. */
  function SingleJourneyFrame(exp: real -> real, j: Journey): (t: Table)
    ensures t.names == FeatureColumns && t.height == 1
  {
    FeatureColumnsDistinct();
    FromRows(FeatureColumns, [SingleJourneyValues(exp, j)])
  }

  /** The single-journey frame holds exactly the feature row of the batch derivation. */
  lemma SingleJourneyRow(exp: real -> real, j: Journey)
    ensures Row(SingleJourneyFrame(exp, j), 0) == FeatureRow(exp, j)
  {
    var r := SingleJourneyValues(exp, j);
    var f := FeatureRow(exp, j);
    assert f[7] == r[7];
    RowsEqual(r, f);
  }

  /** Row k of the prepared batch features equals the frame `predict_delay` builds for that journey. */
  lemma BatchMatchesSingle(exp: real -> real, data: Table, k: nat)
    requires HasTrainingColumns(data) && k < data.height
    ensures PrepareFeatures(exp, data).Ok?
    ensures Row(PrepareFeatures(exp, data).value.x, k) == Row(SingleJourneyFrame(exp, JourneyAt(data, k)), 0)
  {
    SingleJourneyRow(exp, JourneyAt(data, k));
  }

  /** A one-row training table prepares to exactly the single-journey frame of its journey. */
  lemma OneRowPreparesToSingle(exp: real -> real, data: Table)
    requires HasTrainingColumns(data) && data.height == 1
    ensures PrepareFeatures(exp, data).Ok?
    ensures PrepareFeatures(exp, data).value.x == SingleJourneyFrame(exp, JourneyAt(data, 0))
  {
    var x := PrepareFeatures(exp, data).value.x;
    var single := SingleJourneyFrame(exp, JourneyAt(data, 0));
    BatchMatchesSingle(exp, data, 0);
    assert x.names == single.names && x.height == single.height == 1;
    assert forall k :: 0 <= k < x.height ==> Row(x, k) == Row(single, k) by {
      forall k | 0 <= k < x.height ensures Row(x, k) == Row(single, k) {
        assert k == 0;
      }
    }
    TableExtensionality(x, single);
  }

  /**
   * `predict_delay`: the ensemble prediction for the one-row frame of a
   * journey, i.e. the weighted sum of the models' predictions for it.
   */
  function PredictDelay(models: seq<Entry<Predictor>>, weights: seq<Entry<real>>, exp: real -> real, j: Journey)
    : (r: Result<real>)
    requires Aligned(models, SingleJourneyFrame(exp, j))
    ensures r.Ok? <==> AllWeighted(models, weights) && (models != [] ==> TotalWeight(weights) != 0.0)
    ensures r.Ok? && models != [] ==>
      r.value == Mix(Vals(models), Coefficients(models, weights, TotalWeight(weights)), SingleJourneyFrame(exp, j), 0)
    ensures r.Ok? && models == [] ==> r.value == 0.0
    ensures r.Err? ==> (r.error == ZeroDivision <==> models[0].key in Keys(weights) && TotalWeight(weights) == 0.0)
    ensures r.Err? && r.error != ZeroDivision ==>
      r.error.KeyError? && r.error.key in Keys(models) && r.error.key !in Keys(weights)
  {
    var predictions :- PredictEnsemble(models, weights, SingleJourneyFrame(exp, j));
    Ok(predictions[0])
  }

  /**
   * For a journey stored as a one-row training table, the single-journey
   * prediction is the batch ensemble prediction on its prepared features.
   */
  lemma DelayMatchesBatch(models: seq<Entry<Predictor>>, weights: seq<Entry<real>>, exp: real -> real, data: Table)
    requires HasTrainingColumns(data) && data.height == 1
    requires Aligned(models, PrepareFeatures(exp, data).value.x)
    ensures Aligned(models, SingleJourneyFrame(exp, JourneyAt(data, 0)))
    ensures var batch := PredictEnsemble(models, weights, PrepareFeatures(exp, data).value.x);
      var single := PredictDelay(models, weights, exp, JourneyAt(data, 0));
      && (single.Ok? <==> batch.Ok?)
      && (single.Ok? ==> single.value == batch.value[0])
      && (single.Err? ==> single.error == batch.error)
  {
    OneRowPreparesToSingle(exp, data);
  }

  /** With non-negative weights of positive total, a journey's delay lies within the models' own predictions. */
  lemma DelayWithinModels(models: seq<Entry<Predictor>>, weights: seq<Entry<real>>, exp: real -> real, j: Journey,
                          lo: real, hi: real)
    requires Aligned(models, SingleJourneyFrame(exp, j)) && Matching(models, weights)
    requires forall i :: 0 <= i < |weights| ==> weights[i].val >= 0.0
    requires TotalWeight(weights) > 0.0
    requires forall i :: 0 <= i < |models| ==> lo <= models[i].val(SingleJourneyFrame(exp, j))[0] <= hi
    ensures PredictDelay(models, weights, exp, j).Ok?
    ensures lo <= PredictDelay(models, weights, exp, j).value <= hi
  {
    ConvexCombination(models, weights, SingleJourneyFrame(exp, j), 0, lo, hi);
  }
}

=== FILE: features.dfy ===
/**
 * Feature derivation: the batch path over the stored training table and the
 * single-journey path of the delay predictor, which must build the same row.
 */
module Features {
  import opened Results
  import opened Tables
  import opened GeoDecay
  import opened Schema
  import Collector

  /** The spatial scale of the `distance_decay` feature, in km. */
  const DistanceDecaySigma: real := 50.0

  /** `np.exp(-(d**2) / (2 * 50**2))` applied element-wise. */
  function DecayColumn(exp: real -> real, distance: seq<real>): (r: seq<real>)
    ensures |r| == |distance|
    ensures forall i :: 0 <= i < |r| ==> r[i] == Decay(exp, distance[i], DistanceDecaySigma)
  {
    seq(|distance|, i requires 0 <= i < |distance| => Decay(exp, distance[i], DistanceDecaySigma))
  }

  /** The raw inputs of one journey, as the predictor receives them. */
  datatype Journey = Journey(distanceKm: real, timeOfDay: real, dayOfWeek: real, isPeakHour: real, isCologneBottleneck: real)

  /** The nine feature values of one journey, in feature-column order. */
  function FeatureRow(exp: real -> real, j: Journey): (r: seq<real>)
    ensures |r| == |FeatureColumns|
  {
    var cologneEffect := j.isCologneBottleneck * 2.0;
    var peakEffect := j.isPeakHour * 1.5;
    [j.distanceKm, j.timeOfDay, j.dayOfWeek, j.isPeakHour, j.isCologneBottleneck,
     cologneEffect, peakEffect, Decay(exp, j.distanceKm, DistanceDecaySigma), Product(cologneEffect, peakEffect)]
  }

  /** Whether a table holds every raw training column. */
  predicate HasTrainingColumns(t: Table) {
    && DistanceKm in t.cols && TimeOfDay in t.cols && DayOfWeek in t.cols
    && IsPeakHour in t.cols && IsCologneBottleneck in t.cols && DelayMinutes in t.cols
  }

  /** The raw journey stored in row k of a training table. */
  function JourneyAt(t: Table, k: nat): Journey
    requires HasTrainingColumns(t) && k < t.height
  {
    Journey(t.cols[DistanceKm][k], t.cols[TimeOfDay][k], t.cols[DayOfWeek][k],
            t.cols[IsPeakHour][k], t.cols[IsCologneBottleneck][k])
  }

  /** The four derived feature columns. */
  const DerivedColumns: set<string> := {CologneEffect, PeakEffect, DistanceDecay, ColognePeakInteraction}

  /**
   * The four derived columns of `prepare_features`, assigned on a copy of the
   * stored table in source order; every other column is left as it was.
   */
  function Derive(exp: real -> real, data: Table): (df: Table)
    requires IsCologneBottleneck in data.cols && IsPeakHour in data.cols && DistanceKm in data.cols
    ensures df.height == data.height
    ensures CologneEffect in df.cols && PeakEffect in df.cols && DistanceDecay in df.cols && ColognePeakInteraction in df.cols
    ensures df.cols[CologneEffect] == Scale(data.cols[IsCologneBottleneck], 2.0)
    ensures df.cols[PeakEffect] == Scale(data.cols[IsPeakHour], 1.5)
    ensures df.cols[DistanceDecay] == DecayColumn(exp, data.cols[DistanceKm])
    ensures df.cols[ColognePeakInteraction] == Times(df.cols[CologneEffect], df.cols[PeakEffect])
  {
    var withCologne := Assign(data, CologneEffect, Scale(data.cols[IsCologneBottleneck], 2.0));
    var withPeak := Assign(withCologne, PeakEffect, Scale(withCologne.cols[IsPeakHour], 1.5));
    var withDecay := Assign(withPeak, DistanceDecay, DecayColumn(exp, withPeak.cols[DistanceKm]));
    Assign(withDecay, ColognePeakInteraction, Times(withDecay.cols[CologneEffect], withDecay.cols[PeakEffect]))
  }

  /**
   * Deriving works on a copy: every column of the stored table is still
   * there, unchanged unless it is one of the four derived ones, and no other
   * column appears.
   */
  lemma DeriveFrame(exp: real -> real, data: Table, c: string)
    requires IsCologneBottleneck in data.cols && IsPeakHour in data.cols && DistanceKm in data.cols
    ensures c in data.cols ==> c in Derive(exp, data).cols
    ensures c in Derive(exp, data).cols ==> c in data.cols || c in DerivedColumns
    ensures c in data.cols && c !in DerivedColumns ==> Derive(exp, data).cols[c] == data.cols[c]
  {
    var withCologne := Assign(data, CologneEffect, Scale(data.cols[IsCologneBottleneck], 2.0));
    var withPeak := Assign(withCologne, PeakEffect, Scale(withCologne.cols[IsPeakHour], 1.5));
    var withDecay := Assign(withPeak, DistanceDecay, DecayColumn(exp, withPeak.cols[DistanceKm]));
    var df := Assign(withDecay, ColognePeakInteraction, Times(withDecay.cols[CologneEffect], withDecay.cols[PeakEffect]));
    assert df == Derive(exp, data);
    if c in data.cols {
      assert c in withCologne.cols && c in withPeak.cols && c in withDecay.cols;
    }
    if c in df.cols && c !in DerivedColumns {
      assert c in withDecay.cols && c in withPeak.cols && c in withCologne.cols;
    }
    if c in data.cols && c !in DerivedColumns {
      assert withCologne.cols[c] == data.cols[c];
      assert withPeak.cols[c] == data.cols[c];
      assert withDecay.cols[c] == data.cols[c];
    }
  }

  lemma FeatureColumnsDistinct()
    ensures Distinct(FeatureColumns)
  {
  }

  /** Whether a table holds all nine feature columns. */
  predicate HasFeatureColumns(t: Table) {
    && DistanceKm in t.cols && TimeOfDay in t.cols && DayOfWeek in t.cols
    && IsPeakHour in t.cols && IsCologneBottleneck in t.cols
    && CologneEffect in t.cols && PeakEffect in t.cols && DistanceDecay in t.cols
    && ColognePeakInteraction in t.cols
  }

  lemma FeatureColumnsPresent(t: Table)
    ensures HasFeatureColumns(t) <==> forall i :: 0 <= i < |FeatureColumns| ==> FeatureColumns[i] in t.cols
  {
    if forall i :: 0 <= i < |FeatureColumns| ==> FeatureColumns[i] in t.cols {
      assert FeatureColumns[0] in t.cols && FeatureColumns[1] in t.cols && FeatureColumns[2] in t.cols;
      assert FeatureColumns[3] in t.cols && FeatureColumns[4] in t.cols && FeatureColumns[5] in t.cols;
      assert FeatureColumns[6] in t.cols && FeatureColumns[7] in t.cols && FeatureColumns[8] in t.cols;
    }
  }

  /** The nine feature values of row k of a table, read by column name in feature order. */
  function FeatureValues(t: Table, k: nat): (r: seq<real>)
    requires HasFeatureColumns(t) && k < t.height
    ensures |r| == |FeatureColumns|
  {
    FeatureColumnsPresent(t);
    seq(|FeatureColumns|, i requires 0 <= i < |FeatureColumns| => t.cols[FeatureColumns[i]][k])
  }

  /** The feature values of a row, spelled out column by column. */
  lemma FeatureValuesListed(t: Table, k: nat)
    requires HasFeatureColumns(t) && k < t.height
    ensures FeatureValues(t, k) ==
      [t.cols[DistanceKm][k], t.cols[TimeOfDay][k], t.cols[DayOfWeek][k],
       t.cols[IsPeakHour][k], t.cols[IsCologneBottleneck][k],
       t.cols[CologneEffect][k], t.cols[PeakEffect][k], t.cols[DistanceDecay][k],
       t.cols[ColognePeakInteraction][k]]
  {
    var v := FeatureValues(t, k);
    RowsEqual(v, [t.cols[DistanceKm][k], t.cols[TimeOfDay][k], t.cols[DayOfWeek][k],
       t.cols[IsPeakHour][k], t.cols[IsCologneBottleneck][k],
       t.cols[CologneEffect][k], t.cols[PeakEffect][k], t.cols[DistanceDecay][k],
       t.cols[ColognePeakInteraction][k]]);
  }

  /** Two nine-element rows with equal entries are equal. */
  lemma RowsEqual(a: seq<real>, b: seq<real>)
    requires |a| == 9 && |b| == 9
    requires a[0] == b[0] && a[1] == b[1] && a[2] == b[2]
    requires a[3] == b[3] && a[4] == b[4] && a[5] == b[5]
    requires a[6] == b[6] && a[7] == b[7] && a[8] == b[8]
    ensures a == b
  {
    forall i | 0 <= i < 9 ensures a[i] == b[i] {
    }
  }

  /** Selecting the feature columns succeeds and reads each row in feature order. */
  lemma SelectedRow(t: Table, k: nat)
    requires HasFeatureColumns(t) && k < t.height
    ensures Distinct(FeatureColumns) && Select(t, FeatureColumns).Ok?
    ensures Row(Select(t, FeatureColumns).value, k) == FeatureValues(t, k)
  {
    FeatureColumnsDistinct();
    FeatureColumnsPresent(t);
    SelectRow(t, FeatureColumns, k);
  }


  /** Row k of the derived columns, computed column-wise, is the journey's feature row. */
  lemma ColumnwiseRow(exp: real -> real, distance: seq<real>, timeOfDay: seq<real>, dayOfWeek: seq<real>,
                      peak: seq<real>, cologne: seq<real>, cologneEffect: seq<real>, peakEffect: seq<real>,
                      decay: seq<real>, interaction: seq<real>, k: nat)
    requires k < |distance| == |timeOfDay| == |dayOfWeek| == |peak| == |cologne|
    requires cologneEffect == Scale(cologne, 2.0) && peakEffect == Scale(peak, 1.5)
    requires decay == DecayColumn(exp, distance) && interaction == Times(cologneEffect, peakEffect)
    ensures [distance[k], timeOfDay[k], dayOfWeek[k], peak[k], cologne[k],
             cologneEffect[k], peakEffect[k], decay[k], interaction[k]]
         == FeatureRow(exp, Journey(distance[k], timeOfDay[k], dayOfWeek[k], peak[k], cologne[k]))
  {
  }

  /** The raw columns are not among the derived ones. */
  lemma RawNotDerived()
    ensures DistanceKm !in DerivedColumns && TimeOfDay !in DerivedColumns && DayOfWeek !in DerivedColumns
    ensures IsPeakHour !in DerivedColumns && IsCologneBottleneck !in DerivedColumns
  {
  }

  /** Deriving keeps the five raw feature columns as they were. */
  lemma DeriveKeepsRaw(exp: real -> real, data: Table)
    requires HasTrainingColumns(data)
    ensures var df := Derive(exp, data);
      && DistanceKm in df.cols && df.cols[DistanceKm] == data.cols[DistanceKm]
      && TimeOfDay in df.cols && df.cols[TimeOfDay] == data.cols[TimeOfDay]
      && DayOfWeek in df.cols && df.cols[DayOfWeek] == data.cols[DayOfWeek]
      && IsPeakHour in df.cols && df.cols[IsPeakHour] == data.cols[IsPeakHour]
      && IsCologneBottleneck in df.cols && df.cols[IsCologneBottleneck] == data.cols[IsCologneBottleneck]
  {
    RawNotDerived();
    DeriveFrame(exp, data, DistanceKm);
    DeriveFrame(exp, data, TimeOfDay);
    DeriveFrame(exp, data, DayOfWeek);
    DeriveFrame(exp, data, IsPeakHour);
    DeriveFrame(exp, data, IsCologneBottleneck);
  }

  /** Deriving from a full training table yields all nine feature columns. */
  lemma DerivedHasFeatures(exp: real -> real, data: Table)
    requires HasTrainingColumns(data)
    ensures HasFeatureColumns(Derive(exp, data))
  {
    DeriveKeepsRaw(exp, data);
  }

  /** The derived table holds, in row k, exactly the journey's feature row. */
  lemma DerivedRow(exp: real -> real, data: Table, k: nat)
    requires HasTrainingColumns(data) && k < data.height
    ensures HasFeatureColumns(Derive(exp, data))
    ensures FeatureValues(Derive(exp, data), k) == FeatureRow(exp, JourneyAt(data, k))
  {
    var df := Derive(exp, data);
    DeriveKeepsRaw(exp, data);
    FeatureValuesListed(df, k);
    ColumnwiseRow(exp, df.cols[DistanceKm], df.cols[TimeOfDay], df.cols[DayOfWeek], df.cols[IsPeakHour],
                  df.cols[IsCologneBottleneck], df.cols[CologneEffect], df.cols[PeakEffect],
                  df.cols[DistanceDecay], df.cols[ColognePeakInteraction], k);
  }

  /** A feature matrix and its target vector. */
  datatype Prepared = Prepared(x: Table, y: seq<real>)

  /**
   * `prepare_features`: derive the four Levy features on a copy of the stored
   * table, then select the nine feature columns and the `delay_minutes` target.
   * Every step reads a column by name, so a missing raw column is a KeyError,
   * reported for the first column read.
   */
  function PrepareFeatures(exp: real -> real, data: Table): (r: Result<Prepared>)
    ensures r.Ok? <==> HasTrainingColumns(data)
    ensures r.Ok? ==> r.value.x.names == FeatureColumns && r.value.x.height == data.height
    ensures r.Ok? ==> r.value.y == data.cols[DelayMinutes]
    ensures r.Ok? ==> forall k :: 0 <= k < data.height ==> Row(r.value.x, k) == FeatureRow(exp, JourneyAt(data, k))
    ensures r.Err? ==> r.error.KeyError? && r.error.key in TrainingColumns && r.error.key !in data.cols
  {
    // The derived columns have other names than the raw ones, so a raw column
    // reads the same from the stored table as from the working copy; and once
    // the first three reads succeed, the nine-column selection can only miss
    // `time_of_day` or `day_of_week`.
    var _ :- Column(data, IsCologneBottleneck);
    var _ :- Column(data, IsPeakHour);
    var _ :- Column(data, DistanceKm);
    var _ :- Column(data, TimeOfDay);
    var _ :- Column(data, DayOfWeek);
    var y :- Column(data, DelayMinutes);
    var df := Derive(exp, data);
    DerivedHasFeatures(exp, data);
    FeatureColumnsDistinct();
    FeatureColumnsPresent(df);
    var x := Select(df, FeatureColumns).value;
    assert forall k :: 0 <= k < data.height ==> Row(x, k) == FeatureRow(exp, JourneyAt(data, k)) by {
      forall k | 0 <= k < data.height ensures Row(x, k) == FeatureRow(exp, JourneyAt(data, k)) {
        DerivedRow(exp, data, k);
        SelectedRow(df, k);
      }
    }
    Ok(Prepared(x, y))
  }

  /** With 0/1 flags the interaction feature is 3 exactly when both flags are set, and 0 otherwise. */
  lemma InteractionOfFlags(exp: real -> real, j: Journey)
    requires j.isPeakHour == 0.0 || j.isPeakHour == 1.0
    requires j.isCologneBottleneck == 0.0 || j.isCologneBottleneck == 1.0
    ensures FeatureRow(exp, j)[8] == 3.0 <==> j.isPeakHour == 1.0 && j.isCologneBottleneck == 1.0
    ensures FeatureRow(exp, j)[8] != 3.0 ==> FeatureRow(exp, j)[8] == 0.0
    ensures FeatureRow(exp, j)[5] == 2.0 * j.isCologneBottleneck && FeatureRow(exp, j)[6] == 1.5 * j.isPeakHour
  {
  }

  /** The decay feature is a weight in (0, 1], and exactly 1 for a zero distance. */
  lemma DecayFeature(exp: real -> real, j: Journey)
    requires ExpLaws(exp)
    ensures 0.0 < FeatureRow(exp, j)[7] <= 1.0
    ensures j.distanceKm == 0.0 ==> FeatureRow(exp, j)[7] == 1.0
  {
    assert Decay(exp, j.distanceKm, DistanceDecaySigma) > 0.0;
  }

  /**
   * The exported synthetic table is a valid training table, and each prepared
   * row's interaction feature is 3 exactly on peak-hour Cologne journeys.
   */
  lemma ExportedRowsPrepare(exp: real -> real, distance: seq<real>, timeOfDay: seq<int>, dayOfWeek: seq<int>,
                            isCologne: seq<bool>, baseDelay: seq<real>, k: nat)
    requires |timeOfDay| == |distance| && |dayOfWeek| == |distance|
    requires |isCologne| == |distance| && |baseDelay| == |distance|
    requires k < |distance|
    ensures var data := Collector.ExportForModels(distance, timeOfDay, dayOfWeek, isCologne, baseDelay);
      && PrepareFeatures(exp, data).Ok?
      && (Row(PrepareFeatures(exp, data).value.x, k)[8] == 3.0 <==> Collector.IsPeakHour(timeOfDay[k]) && isCologne[k])
  {
    var data := Collector.ExportForModels(distance, timeOfDay, dayOfWeek, isCologne, baseDelay);
    var row := Row(data, k);
    assert row[3] == data.cols[IsPeakHour][k] && row[4] == data.cols[IsCologneBottleneck][k];
    InteractionOfFlags(exp, JourneyAt(data, k));
  }
}

=== FILE: gaussian_model.dfy ===
/**
 * The Gaussian-inspired regressor: a Ridge regression fitted on the features
 * plus two kernel columns, added the same way before fitting and predicting.
 */
module GaussianModel {
  import opened Results
  import opened Tables
  import opened GeoDecay
  import opened Schema
  import opened Features

  /** A regression fit: training features and targets to a fitted predictor. */
  type Fitter = (Table, seq<real>) -> Predictor

  /** What the model assumes of a fit: its predictor gives one value per row. */
  ghost predicate FitterLaws(fit: Fitter) {
    forall t: Table, y: seq<real> :: RowPreserving(fit(t, y))
  }

  /** A fitted Ridge regression and the columns it was fitted on. */
  datatype Fitted = Fitted(columns: seq<string>, predictor: Predictor)

  /** The model state: whether a zone matrix was supplied, and the Ridge once fitted. */
  datatype Model = Model(zoneMatrixLoaded: bool, ridge: Option<Fitted>)

  /** `GaussianInspiredModel(zone_matrix)`: nothing fitted yet. */
  function NewModel(zoneMatrixLoaded: bool): (m: Model)
    ensures m.zoneMatrixLoaded == zoneMatrixLoaded && m.ridge.None?
  {
    Model(zoneMatrixLoaded, None)
  }

  /** Whether the Cologne kernel column is added. */
  predicate AddsKernel(zoneMatrixLoaded: bool, names: seq<string>) {
    zoneMatrixLoaded && IsCologneBottleneck in names
  }

  /**
   * The column labels after augmentation, from the labels alone: each kernel
   * column is appended unless a column of that name already exists.
   */
  function AugmentedNames(zoneMatrixLoaded: bool, names: seq<string>): seq<string> {
    var withKernel :=
      if AddsKernel(zoneMatrixLoaded, names) && CologneKernel !in names then names + [CologneKernel] else names;
    if DistanceKm in names && DistanceDecay !in withKernel then withKernel + [DistanceDecay] else withKernel
  }

  /** The kernel step: `cologne_kernel = 2 * is_cologne_bottleneck` when the model has a zone matrix. */
  function WithKernel(zoneMatrixLoaded: bool, x: Table): (r: Table)
    ensures r.height == x.height
    ensures r.names == (if AddsKernel(zoneMatrixLoaded, x.names) && CologneKernel !in x.names then x.names + [CologneKernel] else x.names)
    ensures AddsKernel(zoneMatrixLoaded, x.names) ==>
      CologneKernel in r.cols && r.cols[CologneKernel] == Scale(x.cols[IsCologneBottleneck], 2.0)
    ensures forall c :: c in x.cols && !(c == CologneKernel && AddsKernel(zoneMatrixLoaded, x.names)) ==>
      c in r.cols && r.cols[c] == x.cols[c]
    ensures forall c :: c in r.cols ==> c in x.cols || c == CologneKernel
  {
    if AddsKernel(zoneMatrixLoaded, x.names) then Assign(x, CologneKernel, Scale(x.cols[IsCologneBottleneck], 2.0))
    else x
  }

  /** The decay step: `distance_decay` from the original input's `distance_km`, when present. */
  function WithDecay(exp: real -> real, x: Table, w: Table): (r: Table)
    requires w.height == x.height
    ensures r.height == x.height
    ensures r.names == (if DistanceKm in x.cols && DistanceDecay !in w.names then w.names + [DistanceDecay] else w.names)
    ensures DistanceKm in x.cols ==>
      DistanceDecay in r.cols && r.cols[DistanceDecay] == DecayColumn(exp, x.cols[DistanceKm])
    ensures forall c :: c in w.cols && !(c == DistanceDecay && DistanceKm in x.cols) ==> c in r.cols && r.cols[c] == w.cols[c]
    ensures forall c :: c in r.cols ==> c in w.cols || c == DistanceDecay
    ensures DistanceKm !in x.cols ==> r == w
  {
    if DistanceKm in x.cols then Assign(w, DistanceDecay, DecayColumn(exp, x.cols[DistanceKm])) else w
  }

  /**
   * The augmentation shared by `fit` and `predict`, on a copy of the input:
   * `cologne_kernel` when a zone matrix is loaded and the bottleneck column is
   * present, and `distance_decay` (overwritten if it exists) when `distance_km`
   * is present. An absent column skips its step without failing.
   */
  function Augment(exp: real -> real, zoneMatrixLoaded: bool, x: Table): (r: Table)
    ensures r.height == x.height
    ensures r.names == AugmentedNames(zoneMatrixLoaded, x.names)
  {
    var withKernel := WithKernel(zoneMatrixLoaded, x);
    assert (DistanceDecay !in withKernel.names) == (DistanceDecay !in withKernel.cols);
    WithDecay(exp, x, withKernel)
  }

  /**
   * The values augmentation writes: the kernel column is twice the bottleneck
   * flag, the decay column is the decay of `distance_km`, and with neither
   * step applicable the copy equals the input.
   */
  lemma AugmentColumns(exp: real -> real, zoneMatrixLoaded: bool, x: Table)
    ensures var r := Augment(exp, zoneMatrixLoaded, x);
      && (AddsKernel(zoneMatrixLoaded, x.names) ==>
            CologneKernel in r.cols && r.cols[CologneKernel] == Scale(x.cols[IsCologneBottleneck], 2.0))
      && (DistanceKm in x.cols ==>
            DistanceDecay in r.cols && r.cols[DistanceDecay] == DecayColumn(exp, x.cols[DistanceKm]))
      && (!AddsKernel(zoneMatrixLoaded, x.names) && DistanceKm !in x.cols ==> r == x)
  {
    var withKernel := WithKernel(zoneMatrixLoaded, x);
    assert Augment(exp, zoneMatrixLoaded, x) == WithDecay(exp, x, withKernel);
  }

  /** Augmentation keeps every other column as it was and adds nothing but the two kernel columns. */
  lemma AugmentFrame(exp: real -> real, zoneMatrixLoaded: bool, x: Table)
    ensures var r := Augment(exp, zoneMatrixLoaded, x);
      && (forall c ::
            (c in x.cols && !(c == CologneKernel && AddsKernel(zoneMatrixLoaded, x.names))
             && !(c == DistanceDecay && DistanceKm in x.cols)) ==> c in r.cols && r.cols[c] == x.cols[c])
      && (forall c :: c in r.cols ==> c in x.cols || c == CologneKernel || c == DistanceDecay)
  {
    var withKernel := WithKernel(zoneMatrixLoaded, x);
    assert Augment(exp, zoneMatrixLoaded, x) == WithDecay(exp, x, withKernel);
  }

  /** `fit`: augment the training features and fit a Ridge regression on them. */
  function Fit(m: Model, ridge: Fitter, exp: real -> real, x: Table, y: seq<real>): (r: Model)
    ensures r.zoneMatrixLoaded == m.zoneMatrixLoaded && r.ridge.Some?
    ensures r.ridge.value.columns == AugmentedNames(m.zoneMatrixLoaded, x.names)
    ensures r.ridge.value.predictor == ridge(Augment(exp, m.zoneMatrixLoaded, x), y)
  {
    var features := Augment(exp, m.zoneMatrixLoaded, x);
    Model(m.zoneMatrixLoaded, Some(Fitted(features.names, ridge(features, y))))
  }

  /** `predict`: augment the same way and apply the fitted Ridge; before `fit` there is nothing to call. */
  function Predict(m: Model, exp: real -> real, x: Table): (r: Result<seq<real>>)
    ensures r.Ok? <==> m.ridge.Some?
    ensures r.Err? ==> r.error == NotFitted
    ensures r.Ok? ==> r.value == m.ridge.value.predictor(Augment(exp, m.zoneMatrixLoaded, x))
  {
    var features := Augment(exp, m.zoneMatrixLoaded, x);
    match m.ridge
    case None => Err(NotFitted)
    case Some(f) => Ok(f.predictor(features))
  }

  /** `score`: R² of the targets against this model's own predictions. */
  function Score(m: Model, exp: real -> real, r2: (seq<real>, seq<real>) -> real, x: Table, y: seq<real>)
    : (r: Result<real>)
    ensures r.Ok? <==> Predict(m, exp, x).Ok?
    ensures r.Ok? ==> r.value == r2(y, Predict(m, exp, x).value)
    ensures r.Err? ==> r.error == NotFitted
  {
    var predictions :- Predict(m, exp, x);
    Ok(r2(y, predictions))
  }

  /** A fitted model as an ensemble member. */
  function AsPredictor(m: Model, exp: real -> real): (p: Predictor)
    requires m.ridge.Some?
    ensures forall x: Table :: Predict(m, exp, x) == Ok(p(x))
  {
    (x: Table) => m.ridge.value.predictor(Augment(exp, m.zoneMatrixLoaded, x))
  }

  /**
   * Fit and predict agree on the columns: a table with the labels seen at fit
   * time reaches the Ridge with exactly the columns it was fitted on, and
   * prediction after fitting never fails.
   */
  lemma FitPredictColumnsAgree(m: Model, ridge: Fitter, exp: real -> real, train: Table, y: seq<real>, x: Table)
    requires x.names == train.names
    ensures var fitted := Fit(m, ridge, exp, train, y);
      && Predict(fitted, exp, x).Ok?
      && Augment(exp, fitted.zoneMatrixLoaded, x).names == fitted.ridge.value.columns
  {
  }

  /** Calling `predict` or `score` on a fresh model fails. */
  lemma UnfittedFails(zoneMatrixLoaded: bool, exp: real -> real, r2: (seq<real>, seq<real>) -> real, x: Table, y: seq<real>)
    ensures Predict(NewModel(zoneMatrixLoaded), exp, x) == Err(NotFitted)
    ensures Score(NewModel(zoneMatrixLoaded), exp, r2, x, y) == Err(NotFitted)
  {
  }

  /** A fitted model built from a row-preserving fit predicts one value per row. */
  lemma FittedPredictorPreservesRows(m: Model, ridge: Fitter, exp: real -> real, x: Table, y: seq<real>)
    requires FitterLaws(ridge)
    ensures RowPreserving(AsPredictor(Fit(m, ridge, exp, x, y), exp))
  {
    var fitted := Fit(m, ridge, exp, x, y);
    var p := AsPredictor(fitted, exp);
    forall t: Table ensures |p(t)| == t.height {
      var features := Augment(exp, fitted.zoneMatrixLoaded, t);
      assert RowPreserving(ridge(Augment(exp, m.zoneMatrixLoaded, x), y));
      assert |fitted.ridge.value.predictor(features)| == features.height;
    }
  }

  /**
   * On a nine-column feature matrix whose `distance_decay` already holds the
   * decay of `distance_km`, augmentation rewrites that column with the values
   * it holds and adds at most the kernel column at the end.
   */
  lemma AugmentFeatureMatrix(exp: real -> real, zoneMatrixLoaded: bool, x: Table)
    requires x.names == FeatureColumns
    requires forall k :: 0 <= k < x.height ==> x.cols[DistanceDecay][k] == Decay(exp, x.cols[DistanceKm][k], DistanceDecaySigma)
    ensures var r := Augment(exp, zoneMatrixLoaded, x);
      && r.names == (if zoneMatrixLoaded then FeatureColumns + [CologneKernel] else FeatureColumns)
      && r.cols[DistanceDecay] == x.cols[DistanceDecay]
  {
    AugmentColumns(exp, zoneMatrixLoaded, x);
    KernelNotAFeature();
    var r := Augment(exp, zoneMatrixLoaded, x);
    assert r.cols[DistanceDecay] == x.cols[DistanceDecay] by {
      assert r.cols[DistanceDecay] == DecayColumn(exp, x.cols[DistanceKm]);
    }
  }

  lemma KernelNotAFeature()
    ensures CologneKernel !in FeatureColumns
    ensures IsCologneBottleneck in FeatureColumns && DistanceKm in FeatureColumns && DistanceDecay in FeatureColumns
    ensures AugmentedNames(false, FeatureColumns) == FeatureColumns
    ensures AugmentedNames(true, FeatureColumns) == FeatureColumns + [CologneKernel]
  {
    assert FeatureColumns[4] == IsCologneBottleneck && FeatureColumns[0] == DistanceKm && FeatureColumns[7] == DistanceDecay;
  }

  /** The prepared feature matrix already holds the decay of its distances. */
  lemma PreparedDecayConsistent(exp: real -> real, data: Table)
    requires PrepareFeatures(exp, data).Ok?
    ensures var x := PrepareFeatures(exp, data).value.x;
      forall k :: 0 <= k < x.height ==> x.cols[DistanceDecay][k] == Decay(exp, x.cols[DistanceKm][k], DistanceDecaySigma)
  {
    var x := PrepareFeatures(exp, data).value.x;
    forall k | 0 <= k < x.height ensures x.cols[DistanceDecay][k] == Decay(exp, x.cols[DistanceKm][k], DistanceDecaySigma) {
      var row := Row(x, k);
      assert row == FeatureRow(exp, JourneyAt(data, k));
      assert row[7] == x.cols[DistanceDecay][k] && row[0] == x.cols[DistanceKm][k];
    }
  }

  /**
   * In the pipeline, fitting and predicting the Gaussian model on prepared
   * features recomputes `distance_decay` to the values `prepare_features`
   * already stored there.
   */
  lemma AugmentPreparedFeatures(exp: real -> real, zoneMatrixLoaded: bool, data: Table)
    requires PrepareFeatures(exp, data).Ok?
    ensures var x := PrepareFeatures(exp, data).value.x;
      var r := Augment(exp, zoneMatrixLoaded, x);
      && r.names == (if zoneMatrixLoaded then FeatureColumns + [CologneKernel] else FeatureColumns)
      && r.cols[DistanceDecay] == x.cols[DistanceDecay]
  {
    PreparedDecayConsistent(exp, data);
    AugmentFeatureMatrix(exp, zoneMatrixLoaded, PrepareFeatures(exp, data).value.x);
  }
}

=== FILE: geo_decay.dfy ===
/**
 * Great-circle distance and Gaussian decay. Both are transcendental, so they
 * enter the model as function parameters constrained only by the laws below,
 * which are stated as hypotheses of the lemmas that need them.
 */
module GeoDecay {

  datatype Coord = Coord(lat: real, lon: real)

  /** The spatial scale for station-to-zone influence. */
  const InfluenceSigma: real := 50.0
  /** The spatial scale for zone-to-zone interaction. */
  const InteractionSigma: real := 30.0

  /** What the model assumes of `np.exp`: exp(0) = 1, positive, non-decreasing. */
  ghost predicate ExpLaws(exp: real -> real) {
    && exp(0.0) == 1.0
    && (forall x :: exp(x) > 0.0)
    && (forall x, y :: x <= y ==> exp(x) <= exp(y))
  }

  /** What the model assumes of the haversine distance: symmetric, non-negative,
      and zero from a coordinate to itself. */
  ghost predicate DistLaws(dist: (Coord, Coord) -> real) {
    && (forall a, b :: dist(a, b) == dist(b, a))
    && (forall a, b :: dist(a, b) >= 0.0)
    && (forall a :: dist(a, a) == 0.0)
  }

  /** The two numeric primitives the zone geometry needs. */
  datatype Numerics = Numerics(exp: real -> real, dist: (Coord, Coord) -> real) {
    ghost predicate Lawful() {
      ExpLaws(exp) && DistLaws(dist)
    }
  }

  /** Python's `x ** n` for a natural exponent. */
  function Pow(x: real, n: nat): real {
    if n == 0 then 1.0 else x * Pow(x, n - 1)
  }

  /**
   * `gaussian_decay(distance, sigma)`: exp(-distance**2 / (2 * sigma**2)).
   * For any exp with the laws of the exponential it is a weight in (0, 1],
   * and 1 at distance 0.
   */
  function Decay(exp: real -> real, distance: real, sigma: real): (w: real)
    requires sigma != 0.0
    ensures ExpLaws(exp) ==> 0.0 < w <= 1.0
    ensures ExpLaws(exp) && distance == 0.0 ==> w == 1.0
  {
    SquareFacts(sigma);
    SquareFacts(distance);
    var arg := -Pow(distance, 2) / (2.0 * Pow(sigma, 2));
    QuotientSign(Pow(distance, 2), 2.0 * Pow(sigma, 2));
    assert arg == -(Pow(distance, 2) / (2.0 * Pow(sigma, 2)));
    exp(arg)
  }

  /** For a fixed scale, the decay never increases with distance. */
  lemma DecayMonotone(exp: real -> real, d1: real, d2: real, sigma: real)
    requires ExpLaws(exp) && sigma != 0.0
    requires 0.0 <= d1 <= d2
    ensures Decay(exp, d1, sigma) >= Decay(exp, d2, sigma)
  {
    SquareFacts(sigma);
    SquareMonotone(d1, d2);
    NegQuotientMono(Pow(d1, 2), Pow(d2, 2), 2.0 * Pow(sigma, 2));
  }

  lemma SquareFacts(x: real)
    ensures Pow(x, 2) >= 0.0
    ensures Pow(x, 2) == 0.0 <==> x == 0.0
  {
    assert Pow(x, 1) == x;
    if x != 0.0 {
      assert x * Pow(x, 1) > 0.0;
    }
  }

  lemma SquareMonotone(a: real, b: real)
    requires 0.0 <= a <= b
    ensures Pow(a, 2) <= Pow(b, 2)
  {
    assert Pow(a, 1) == a && Pow(b, 1) == b;
    assert a * Pow(a, 1) <= a * Pow(b, 1);
    assert a * Pow(b, 1) <= b * Pow(b, 1);
  }

  lemma QuotientSign(a: real, b: real)
    requires b > 0.0
    ensures a >= 0.0 ==> a / b >= 0.0
    ensures a == 0.0 ==> a / b == 0.0
  {
  }

  lemma NegQuotientMono(a: real, c: real, b: real)
    requires b > 0.0 && a <= c
    ensures -c / b <= -a / b
  {
  }

  lemma ReciprocalAntitone(p: real, q: real)
    requires 0.0 < p <= q
    ensures 0.0 < 1.0 / q <= 1.0 / p
  {
    assert (1.0 / q) * q == 1.0;
    assert (1.0 / p) * p == 1.0;
  }

  /** Witness functions satisfying the laws: the hypotheses are not contradictory. */
  function WitnessExp(x: real): real {
    if x >= 0.0 then 1.0 + x else 1.0 / (1.0 - x)
  }

  function WitnessDist(a: Coord, b: Coord): real {
    if a == b then 0.0 else 1.0
  }

  lemma LawsAreSatisfiable()
    ensures Numerics(WitnessExp, WitnessDist).Lawful()
  {
    forall x, y | x <= y ensures WitnessExp(x) <= WitnessExp(y) {
      if y < 0.0 {
        ReciprocalAntitone(1.0 - y, 1.0 - x);
      } else if x < 0.0 {
        ReciprocalAntitone(1.0, 1.0 - x);
      }
    }
    forall x ensures WitnessExp(x) > 0.0 {
      if x < 0.0 {
        ReciprocalAntitone(1.0, 1.0 - x);
      }
    }
  }
}

=== FILE: results.dfy ===
/** Failure-compatible result type for the exceptions the pipeline can raise. */
module Results {

  /** The Python exceptions the modelled code can raise. */
  datatype Error =
    | KeyError(key: string)   // a missing dict key or DataFrame column
    | ZeroDivision            // `x / 0` on Python numbers
    | NotFitted               // calling into `self.model` while it is still None
    | ValueError              // scikit-learn refusing a split that leaves a part empty

  datatype Option<+T> = None | Some(value: T) {
    function GetOr(default: T): T {
      match this
      case Some(v) => v
      case None => default
    }
  }

  datatype Result<+T> = Ok(value: T) | Err(error: Error) {
    predicate IsFailure() {
      Err?
    }

    function PropagateFailure<U>(): Result<U>
      requires Err?
    {
      Err(error)
    }

    function Extract(): T
      requires Ok?
    {
      value
    }
  }
}

=== FILE: schema.dfy ===
/** The column labels shared by the exported training table, the feature tables and the kernel model. */
module Schema {
  const DistanceKm: string := "distance_km"
  const TimeOfDay: string := "time_of_day"
  const DayOfWeek: string := "day_of_week"
  const IsPeakHour: string := "is_peak_hour"
  const IsCologneBottleneck: string := "is_cologne_bottleneck"
  const DelayMinutes: string := "delay_minutes"

  const CologneEffect: string := "cologne_effect"
  const PeakEffect: string := "peak_effect"
  const DistanceDecay: string := "distance_decay"
  const ColognePeakInteraction: string := "cologne_peak_interaction"

  const CologneKernel: string := "cologne_kernel"

  /** The raw columns of a training sample, target last. */
  const TrainingColumns: seq<string> :=
    [DistanceKm, TimeOfDay, DayOfWeek, IsPeakHour, IsCologneBottleneck, DelayMinutes]

  /** The nine model inputs, in the order both feature paths produce them. */
  const FeatureColumns: seq<string> :=
    [DistanceKm, TimeOfDay, DayOfWeek, IsPeakHour, IsCologneBottleneck,
     CologneEffect, PeakEffect, DistanceDecay, ColognePeakInteraction]
}

=== FILE: tables.dfy ===
/** Python dicts and pandas DataFrames, reduced to the operations the pipeline uses. */
module Tables {
  import opened Results

  /** One key/value pair of an insertion-ordered Python dict. */
  datatype Entry<+V> = Entry(key: string, val: V)

  predicate Distinct(ks: seq<string>) {
    forall i, j :: 0 <= i < j < |ks| ==> ks[i] != ks[j]
  }

  function Keys<V>(d: seq<Entry<V>>): (ks: seq<string>)
    ensures |ks| == |d|
    ensures forall i :: 0 <= i < |d| ==> ks[i] == d[i].key
  {
    seq(|d|, i requires 0 <= i < |d| => d[i].key)
  }

  function Vals<V>(d: seq<Entry<V>>): (vs: seq<V>)
    ensures |vs| == |d|
    ensures forall i :: 0 <= i < |d| ==> vs[i] == d[i].val
  {
    seq(|d|, i requires 0 <= i < |d| => d[i].val)
  }

  /** `d[k]`, with None for the KeyError case. */
  function Get<V>(d: seq<Entry<V>>, k: string): (r: Option<V>)
    ensures r.Some? <==> k in Keys(d)
    decreases |d|
  {
    if d == [] then None
    else if d[0].key == k then Some(d[0].val)
    else
      assert Keys(d) == [d[0].key] + Keys(d[1..]);
      Get(d[1..], k)
  }

  /** In a dict with distinct keys, looking up the i-th key yields the i-th value. */
  lemma {:induction false} GetAt<V>(d: seq<Entry<V>>, i: nat)
    requires Distinct(Keys(d)) && i < |d|
    ensures Get(d, d[i].key) == Some(d[i].val)
    decreases |d|
  {
    if i > 0 {
      assert d[0].key != d[i].key by { assert Keys(d)[0] != Keys(d)[i]; }
      assert Distinct(Keys(d[1..])) by {
        forall a, b | 0 <= a < b < |d[1..]| ensures Keys(d[1..])[a] != Keys(d[1..])[b] {
          assert Keys(d)[a + 1] != Keys(d)[b + 1];
        }
      }
      GetAt(d[1..], i - 1);
    }
  }

  function Sum(xs: seq<real>): real
    decreases |xs|
  {
    if xs == [] then 0.0 else xs[0] + Sum(xs[1..])
  }

  /** A DataFrame: ordered column labels, one column of `height` values per label. */
  datatype Frame = Frame(names: seq<string>, cols: map<string, seq<real>>, height: nat) {
    predicate Valid() {
      && Distinct(names)
      && (forall c :: c in cols ==> c in names)
      && (forall c :: c in names ==> c in cols)
      && (forall c :: c in cols ==> |cols[c]| == height)
    }
  }

  type Table = f: Frame | f.Valid() witness Frame([], map[], 0)

  /** Entry j of every row, top to bottom. */
  function ColumnOf(rows: seq<seq<real>>, j: nat): (v: seq<real>)
    requires forall k :: 0 <= k < |rows| ==> j < |rows[k]|
    ensures |v| == |rows|
    ensures forall k :: 0 <= k < |rows| ==> v[k] == rows[k][j]
  {
    seq(|rows|, k requires 0 <= k < |rows| => rows[k][j])
  }

  /** The columns of a row-wise table, keyed by their labels. */
  function ColumnMap(names: seq<string>, rows: seq<seq<real>>): (m: map<string, seq<real>>)
    requires Distinct(names)
    requires forall k :: 0 <= k < |rows| ==> |rows[k]| == |names|
    ensures forall c :: c in m <==> c in names
    ensures forall j :: 0 <= j < |names| ==> m[names[j]] == ColumnOf(rows, j)
    ensures forall c :: c in m ==> |m[c]| == |rows|
  {
    var m := map j | 0 <= j < |names| :: names[j] := ColumnOf(rows, j);
    assert forall j :: 0 <= j < |names| ==> m[names[j]] == ColumnOf(rows, j) by {
      forall j | 0 <= j < |names| ensures m[names[j]] == ColumnOf(rows, j) {
        assert names[j] in m;
      }
    }
    m
  }

  /** A DataFrame built from its rows, `pd.DataFrame([{name: value, ...}, ...])`. */
  function FromRows(names: seq<string>, rows: seq<seq<real>>): (t: Table)
    requires Distinct(names)
    requires forall k :: 0 <= k < |rows| ==> |rows[k]| == |names|
    ensures t.names == names && t.height == |rows|
    ensures forall k :: 0 <= k < |rows| ==> Row(t, k) == rows[k]
  {
    var t: Table := Frame(names, ColumnMap(names, rows), |rows|);
    assert forall k :: 0 <= k < |rows| ==> Row(t, k) == rows[k] by {
      forall k | 0 <= k < |rows| ensures Row(t, k) == rows[k] {
        assert forall j :: 0 <= j < |names| ==> Row(t, k)[j] == ColumnOf(rows, j)[k];
      }
    }
    t
  }

  /** `v[idx]`, as `iloc` and numpy fancy indexing read it: the values at the given positions, in the given order. */
  function Pick<T>(v: seq<T>, idx: seq<nat>): (r: seq<T>)
    requires forall k :: 0 <= k < |idx| ==> idx[k] < |v|
    ensures |r| == |idx|
    ensures forall k :: 0 <= k < |idx| ==> r[k] == v[idx[k]]
  {
    seq(|idx|, k requires 0 <= k < |idx| => v[idx[k]])
  }

  /** Picking two runs of positions one after the other picks their concatenation. */
  lemma PickConcat<T>(v: seq<T>, a: seq<nat>, b: seq<nat>)
    requires forall k :: 0 <= k < |a| ==> a[k] < |v|
    requires forall k :: 0 <= k < |b| ==> b[k] < |v|
    ensures Pick(v, a) + Pick(v, b) == Pick(v, a + b)
  {
  }

  /** `df.iloc[idx]`: the rows at the given positions, in the given order, under the same labels. */
  function TakeRows(t: Table, idx: seq<nat>): (r: Table)
    requires forall k :: 0 <= k < |idx| ==> idx[k] < t.height
    ensures r.names == t.names && r.height == |idx|
    ensures forall k :: 0 <= k < |idx| ==> Row(r, k) == Row(t, idx[k])
  {
    var r: Table := Frame(t.names, map c | c in t.cols :: Pick(t.cols[c], idx), |idx|);
    assert forall k :: 0 <= k < |idx| ==> Row(r, k) == Row(t, idx[k]) by {
      forall k | 0 <= k < |idx| ensures Row(r, k) == Row(t, idx[k]) {
        assert forall i :: 0 <= i < |t.names| ==> Row(r, k)[i] == Pick(t.cols[t.names[i]], idx)[k];
      }
    }
    r
  }

  /** Two tables with the same labels, height and rows are the same table. */
  lemma {:induction false} TableExtensionality(a: Table, b: Table)
    requires a.names == b.names && a.height == b.height
    requires forall k :: 0 <= k < a.height ==> Row(a, k) == Row(b, k)
    ensures a == b
  {
    forall c | c in a.cols ensures c in b.cols && a.cols[c] == b.cols[c] {
      var j :| 0 <= j < |a.names| && a.names[j] == c;
      forall k | 0 <= k < a.height ensures a.cols[c][k] == b.cols[c][k] {
        assert Row(a, k)[j] == Row(b, k)[j];
      }
    }
    assert a.cols == b.cols;
  }

  /** A fitted regressor's `predict`: one prediction per row of its input. */
  type Predictor = Table -> seq<real>

  /** A predictor that returns one value per input row, as every fitted regressor does. */
  ghost predicate RowPreserving(p: Predictor) {
    forall t: Table :: |p(t)| == t.height
  }

  /** `df[c]`, failing with KeyError when the column is absent. */
  function Column(t: Table, c: string): (r: Result<seq<real>>)
    ensures r.Ok? <==> c in t.cols
    ensures r.Ok? ==> r.value == t.cols[c] && |r.value| == t.height
    ensures r.Err? ==> r.error == KeyError(c)
  {
    if c in t.cols then Ok(t.cols[c]) else Err(KeyError(c))
  }

  /** `df[c] = v`: an existing column keeps its position, a new one is appended. */
  function Assign(t: Table, c: string, v: seq<real>): (r: Table)
    requires |v| == t.height
    ensures r.height == t.height
    ensures c in r.cols && r.cols[c] == v
    ensures forall d :: d in t.cols && d != c ==> d in r.cols && r.cols[d] == t.cols[d]
    ensures forall d :: d in r.cols ==> d in t.cols || d == c
    ensures c in t.cols ==> r.names == t.names
    ensures c !in t.cols ==> r.names == t.names + [c]
  {
    if c in t.cols then
      Frame(t.names, t.cols[c := v], t.height)
    else
      var f := Frame(t.names + [c], t.cols[c := v], t.height);
      assert f.Valid() by {
        assert forall i :: 0 <= i < |t.names| ==> f.names[i] == t.names[i];
      }
      f
  }

  /** `df[cs]`: the listed columns in the listed order; KeyError names the first one missing. */
  function Select(t: Table, cs: seq<string>): (r: Result<Table>)
    requires Distinct(cs)
    ensures r.Ok? <==> forall i :: 0 <= i < |cs| ==> cs[i] in t.cols
    ensures r.Ok? ==> r.value.names == cs && r.value.height == t.height
    ensures r.Ok? ==> forall i :: 0 <= i < |cs| ==> r.value.cols[cs[i]] == t.cols[cs[i]]
    ensures r.Err? ==> r.error.KeyError? && r.error.key in cs && r.error.key !in t.cols
  {
    if forall i :: 0 <= i < |cs| ==> cs[i] in t.cols then
      Ok(Frame(cs, map c | c in cs :: t.cols[c], t.height))
    else
      Err(KeyError(FirstMissing(t, cs)))
  }

  /** Row k of a selection reads the selected columns of row k, in selection order. */
  lemma SelectRow(t: Table, cs: seq<string>, k: nat)
    requires Distinct(cs) && k < t.height
    requires forall i :: 0 <= i < |cs| ==> cs[i] in t.cols
    ensures Select(t, cs).Ok?
    ensures Row(Select(t, cs).value, k) == seq(|cs|, i requires 0 <= i < |cs| => t.cols[cs[i]][k])
  {
  }

  function FirstMissing(t: Table, cs: seq<string>): (c: string)
    requires exists i :: 0 <= i < |cs| && cs[i] !in t.cols
    ensures c in cs && c !in t.cols
  {
    if cs[0] !in t.cols then cs[0] else FirstMissing(t, cs[1..])
  }

  /** Row k read across the columns, in column order. */
  function Row(t: Table, k: nat): (r: seq<real>)
    requires k < t.height
    ensures |r| == |t.names|
  {
    seq(|t.names|, i requires 0 <= i < |t.names| => t.cols[t.names[i]][k])
  }

  // Element-wise column arithmetic, as numpy broadcasts it.

  function Scale(v: seq<real>, c: real): (r: seq<real>)
    ensures |r| == |v|
  {
    seq(|v|, i requires 0 <= i < |v| => v[i] * c)
  }

  /** A product of two reals, named so that equal factors give equal products without arithmetic. */
  function Product(a: real, b: real): real {
    a * b
  }

  function Times(a: seq<real>, b: seq<real>): (r: seq<real>)
    requires |a| == |b|
    ensures |r| == |a|
    ensures forall i :: 0 <= i < |a| ==> r[i] == Product(a[i], b[i])
  {
    seq(|a|, i requires 0 <= i < |a| => Product(a[i], b[i]))
  }
}

=== FILE: training_pipeline.dfy ===
/**
 * `train_ensemble`: split the prepared data three ways, fit the three
 * regressors on the training part, weight each by its clamped validation R²,
 * normalise the weights, and hand back the test part. The regressors, the
 * random split and the R² statistic are parameters.
 */
module TrainingPipeline {
  import opened Results
  import opened Tables
  import opened Schema
  import opened Features
  import opened GaussianModel
  import opened Ensemble
  import opened Arith
  import opened DataSplit

  /** The share held out by the first split, then the share of that held out as test data. */
  const HoldoutFraction: real := 0.3
  const TestFraction: real := 0.5

  const XgbKey: string := "xgb"
  const RfKey: string := "rf"
  const GaussianKey: string := "gaussian"

  /** The model names, in the order `train_ensemble` inserts them. */
  const ModelKeys: seq<string> := [XgbKey, RfKey, GaussianKey]

  /** `r2_score(y_true, y_pred)`. */
  type Scorer = (seq<real>, seq<real>) -> real

  /** The library code the pipeline calls: the seeded shuffle of the split, the three fits and the R² statistic. */
  datatype Learners = Learners(shuffle: Shuffle, fitXgb: Fitter, fitRf: Fitter, fitRidge: Fitter, r2: Scorer)

  ghost predicate LearnersLaws(l: Learners) {
    FitterLaws(l.fitXgb) && FitterLaws(l.fitRf) && FitterLaws(l.fitRidge)
  }

  /** `max(0, score)`: a model worse than the mean predictor gets no weight. */
  function Clamp(score: real): (w: real)
    ensures w >= 0.0 && w >= score
    ensures w == 0.0 <==> score <= 0.0
    ensures score > 0.0 ==> w == score
  {
    if score > 0.0 then score else 0.0
  }

  /**
   * The normalisation step: when the weights have a positive total, each is
   * divided by it; otherwise they are left as they are.
   */
  function Normalize(weights: seq<Entry<real>>): (r: seq<Entry<real>>)
    ensures Keys(r) == Keys(weights)
    ensures TotalWeight(weights) <= 0.0 ==> r == weights
    ensures TotalWeight(weights) > 0.0 ==> Vals(r) == DivAll(Vals(weights), TotalWeight(weights))
  {
    var total := TotalWeight(weights);
    if total > 0.0 then
      var r := seq(|weights|, i requires 0 <= i < |weights| => Entry(weights[i].key, weights[i].val / total));
      assert forall i :: 0 <= i < |r| ==> Keys(r)[i] == Keys(weights)[i];
      r
    else weights
  }

  predicate NonNegative(weights: seq<Entry<real>>) {
    forall i :: 0 <= i < |weights| ==> weights[i].val >= 0.0
  }

  /** Normalised non-negative weights with a positive total are in [0, 1] and sum to 1. */
  lemma NormalizedSumToOne(weights: seq<Entry<real>>)
    requires NonNegative(weights) && TotalWeight(weights) > 0.0
    ensures TotalWeight(Normalize(weights)) == 1.0
    ensures forall i :: 0 <= i < |weights| ==> 0.0 <= Normalize(weights)[i].val <= 1.0
  {
    NormalisedSumsToOne(Vals(weights));
    assert forall i :: 0 <= i < |weights| ==> Normalize(weights)[i].val == Vals(Normalize(weights))[i];
  }

  lemma NormalizedAt(weights: seq<Entry<real>>, i: nat)
    requires TotalWeight(weights) > 0.0 && i < |weights|
    ensures |Normalize(weights)| == |weights|
    ensures Normalize(weights)[i].val == weights[i].val / TotalWeight(weights)
  {
    var r := Normalize(weights);
    assert |r| == |Keys(r)|;
    assert r[i].val == Vals(r)[i];
  }

  /** Normalisation keeps the order between any two weights. */
  lemma NormalizeKeepsOrder(weights: seq<Entry<real>>, i: nat, j: nat)
    requires TotalWeight(weights) > 0.0 && i < |weights| && j < |weights|
    ensures weights[i].val <= weights[j].val <==> Normalize(weights)[i].val <= Normalize(weights)[j].val
  {
    NormalizedAt(weights, i);
    NormalizedAt(weights, j);
    Rescaled(weights[i].val, weights[j].val, TotalWeight(weights), Normalize(weights)[i].val, Normalize(weights)[j].val);
  }

  /**
   * Normalising multiplies every weight by the same positive factor, the
   * reciprocal of the total, so all ratios between weights are kept.
   */
  lemma NormalizeIsScaling(weights: seq<Entry<real>>)
    requires TotalWeight(weights) > 0.0
    ensures 1.0 / TotalWeight(weights) > 0.0
    ensures Normalize(weights) == ScaleWeights(weights, 1.0 / TotalWeight(weights))
  {
    var t := TotalWeight(weights);
    var a := Normalize(weights);
    var b := ScaleWeights(weights, 1.0 / t);
    forall i | 0 <= i < |weights| ensures a[i] == b[i] {
      NormalizedAt(weights, i);
      assert a[i].key == Keys(a)[i] == Keys(b)[i] == b[i].key;
      DivAsProduct(weights[i].val, t);
    }
    assert |a| == |Keys(a)|;
  }

  /** Normalising changes no ensemble prediction. */
  lemma NormalizeKeepsPredictions(models: seq<Entry<Predictor>>, weights: seq<Entry<real>>, x: Table)
    requires Aligned(models, x) && TotalWeight(weights) > 0.0
    ensures PredictEnsemble(models, Normalize(weights), x) == PredictEnsemble(models, weights, x)
  {
    NormalizeIsScaling(weights);
    ScaleInvariant(models, weights, 1.0 / TotalWeight(weights), x);
  }

  /** The clamped validation scores, keyed by model name in insertion order. */
  function RawWeights(xgbScore: real, rfScore: real, gaussianScore: real): (r: seq<Entry<real>>)
    ensures Keys(r) == ModelKeys && NonNegative(r)
    ensures TotalWeight(r) == 0.0 <==> xgbScore <= 0.0 && rfScore <= 0.0 && gaussianScore <= 0.0
  {
    var r := [Entry(XgbKey, Clamp(xgbScore)), Entry(RfKey, Clamp(rfScore)), Entry(GaussianKey, Clamp(gaussianScore))];
    assert Vals(r) == [r[0].val, r[1].val, r[2].val];
    SumNonneg(Vals(r));
    r
  }

  /**
   * The scenario of two models at or below zero and one at 0.4: the
   * survivor gets weight 1 and the others 0.
   */
  lemma OneSurvivorGetsAllWeight(xgbScore: real, rfScore: real)
    requires xgbScore <= 0.0 && rfScore <= 0.0
    ensures Vals(Normalize(RawWeights(xgbScore, rfScore, 0.4))) == [0.0, 0.0, 1.0]
  {
    var raw := RawWeights(xgbScore, rfScore, 0.4);
    assert Vals(raw) == [0.0, 0.0, 0.4];
    SumSingle(Vals(raw), 2);
    var n := Vals(Normalize(raw));
    assert n[0] == 0.0 && n[1] == 0.0 && n[2] == 0.4 / 0.4;
  }

  /**
   * The three partitions of the prepared data, each with the positions of its
   * rows in the prepared table.
   */
  datatype Partitions = Partitions(trainRows: seq<nat>, valRows: seq<nat>, testRows: seq<nat>,
                                   xTrain: Table, yTrain: seq<real>, xVal: Table, yVal: seq<real>,
                                   xTest: Table, yTest: seq<real>)

  /** Both splits keep at least one row exactly when there are at least four rows. */
  lemma BothSplitsKeepRows(n: nat)
    ensures var m := HeldCount(n, HoldoutFraction);
      m < n && HeldCount(m, TestFraction) < m <==> n >= 4
  {
    var m := HeldCount(n, HoldoutFraction);
    if n >= 4 {
      assert m >= 2;
    } else if m >= 1 {
      assert m == 1;
    }
  }

  /**
   * The two splits: 30% of the rows are held out (rounded up) and the rest
   * train; the held-out rows are halved (rounded up) into test and, the
   * rest, validation. Either split refuses to leave its kept part empty.
   */
  function Partition(shuffle: Shuffle, x: Table, y: seq<real>): (r: Result<Partitions>)
    ensures r.Ok? <==> |y| == x.height && x.height >= 4
    ensures r.Err? ==> r.error == ValueError
    ensures r.Ok? ==> var held := HeldCount(x.height, HoldoutFraction);
      && |r.value.trainRows| == x.height - held
      && |r.value.valRows| == held - HeldCount(held, TestFraction)
      && |r.value.testRows| == HeldCount(held, TestFraction)
  {
    BothSplitsKeepRows(x.height);
    var first :- TrainTestSplit(shuffle, x, y, HoldoutFraction);
    var second :- TrainTestSplit(shuffle, first.xHeld, first.yHeld, TestFraction);
    // The second split numbers the held-out rows afresh; `first.held` maps those back to prepared rows.
    Ok(Partitions(first.kept, Pick(first.held, second.kept), Pick(first.held, second.held),
                  first.xKept, first.yKept, second.xKept, second.yKept, second.xHeld, second.yHeld))
  }

  /** Every prepared row lands in exactly one of the three partitions. */
  lemma PartitionCoversRows(shuffle: Shuffle, x: Table, y: seq<real>)
    requires Partition(shuffle, x, y).Ok?
    ensures var p := Partition(shuffle, x, y).value;
      IsPermutation(p.trainRows + p.valRows + p.testRows, x.height)
  {
    var first := TrainTestSplit(shuffle, x, y, HoldoutFraction).value;
    var second := TrainTestSplit(shuffle, first.xHeld, first.yHeld, TestFraction).value;
    SplitCoversRows(shuffle, x, y, HoldoutFraction);
    SplitCoversRows(shuffle, first.xHeld, first.yHeld, TestFraction);
    var p := Partition(shuffle, x, y).value;
    var tail := second.kept + second.held;
    PickConcat(first.held, second.kept, second.held);
    assert p.trainRows + p.valRows + p.testRows == first.kept + Pick(first.held, tail);
    ReorderTail(first.kept, first.held, tail, x.height);
  }

  /** Each partition holds the prepared rows and targets at its positions. */
  lemma PartitionRows(shuffle: Shuffle, x: Table, y: seq<real>)
    requires Partition(shuffle, x, y).Ok?
    ensures var p := Partition(shuffle, x, y).value;
      && Takes(x, y, p.trainRows, p.xTrain, p.yTrain)
      && Takes(x, y, p.valRows, p.xVal, p.yVal)
      && Takes(x, y, p.testRows, p.xTest, p.yTest)
  {
    var first := TrainTestSplit(shuffle, x, y, HoldoutFraction).value;
    var second := TrainTestSplit(shuffle, first.xHeld, first.yHeld, TestFraction).value;
    var p := Partition(shuffle, x, y).value;
    forall k | 0 <= k < |p.valRows|
      ensures p.valRows[k] < x.height && p.valRows[k] < |y|
      ensures Row(p.xVal, k) == Row(x, p.valRows[k]) && p.yVal[k] == y[p.valRows[k]]
    {
      assert p.valRows[k] == first.held[second.kept[k]];
    }
    forall k | 0 <= k < |p.testRows|
      ensures p.testRows[k] < x.height && p.testRows[k] < |y|
      ensures Row(p.xTest, k) == Row(x, p.testRows[k]) && p.yTest[k] == y[p.testRows[k]]
    {
      assert p.testRows[k] == first.held[second.held[k]];
    }
  }

  /** The default 1000 synthetic journeys split into 700 training, 150 validation and 150 test rows. */
  lemma ThousandJourneys(shuffle: Shuffle, x: Table, y: seq<real>)
    requires x.height == 1000 && |y| == 1000
    ensures Partition(shuffle, x, y).Ok?
    ensures var p := Partition(shuffle, x, y).value;
      |p.trainRows| == 700 && |p.valRows| == 150 && |p.testRows| == 150
  {
    assert HeldCount(1000, HoldoutFraction) == 300;
    assert HeldCount(300, TestFraction) == 150;
  }

  /** The trained ensemble and the held-out test partition returned to the caller. */
  datatype Trained = Trained(models: seq<Entry<Predictor>>, weights: seq<Entry<real>>, xTest: Table, yTest: seq<real>)

  /** The Gaussian model fitted on the training partition. */
  function FitGaussian(l: Learners, exp: real -> real, zoneMatrixLoaded: bool, p: Partitions): (m: GaussianModel.Model)
    ensures m.ridge.Some? && m.zoneMatrixLoaded == zoneMatrixLoaded
    ensures m.ridge.value.columns == AugmentedNames(zoneMatrixLoaded, p.xTrain.names)
    ensures m.ridge.value.predictor == l.fitRidge(Augment(exp, zoneMatrixLoaded, p.xTrain), p.yTrain)
  {
    Fit(NewModel(zoneMatrixLoaded), l.fitRidge, exp, p.xTrain, p.yTrain)
  }

  /** The model dict in insertion order. */
  function Members(xgb: Predictor, rf: Predictor, gaussian: Predictor): (ms: seq<Entry<Predictor>>)
    ensures Keys(ms) == ModelKeys
    ensures |ms| == 3 && ms[0].val == xgb && ms[1].val == rf && ms[2].val == gaussian
  {
    var ms := [Entry(XgbKey, xgb), Entry(RfKey, rf), Entry(GaussianKey, gaussian)];
    assert Keys(ms) == [ms[0].key, ms[1].key, ms[2].key];
    ms
  }

  /** Each model's `score(X_val, y_val)`: R² on the validation partition, in model order. */
  function ValidationScores(l: Learners, exp: real -> real, zoneMatrixLoaded: bool, p: Partitions): (s: seq<real>)
    ensures |s| == 3
    ensures s[0] == l.r2(p.yVal, l.fitXgb(p.xTrain, p.yTrain)(p.xVal))
    ensures s[1] == l.r2(p.yVal, l.fitRf(p.xTrain, p.yTrain)(p.xVal))
    ensures s[2] == l.r2(p.yVal, Predict(FitGaussian(l, exp, zoneMatrixLoaded, p), exp, p.xVal).value)
  {
    var gaussian := FitGaussian(l, exp, zoneMatrixLoaded, p);
    [l.r2(p.yVal, l.fitXgb(p.xTrain, p.yTrain)(p.xVal)),
     l.r2(p.yVal, l.fitRf(p.xTrain, p.yTrain)(p.xVal)),
     Score(gaussian, exp, l.r2, p.xVal, p.yVal).value]
  }

  /**
   * The body of `train_ensemble` once the data is split: every model is
   * fitted on the training partition, every weight comes from the validation
   * partition, and the test partition is handed back untouched.
   */
  function TrainOn(l: Learners, exp: real -> real, zoneMatrixLoaded: bool, p: Partitions): (r: Trained)
    ensures var s := ValidationScores(l, exp, zoneMatrixLoaded, p);
      && r.models == Members(l.fitXgb(p.xTrain, p.yTrain), l.fitRf(p.xTrain, p.yTrain),
                             AsPredictor(FitGaussian(l, exp, zoneMatrixLoaded, p), exp))
      && r.weights == Normalize(RawWeights(s[0], s[1], s[2]))
      && r.xTest == p.xTest && r.yTest == p.yTest
    ensures Keys(r.weights) == Keys(r.models) == ModelKeys && NonNegative(r.weights)
    ensures var s := ValidationScores(l, exp, zoneMatrixLoaded, p);
      && (s[0] > 0.0 || s[1] > 0.0 || s[2] > 0.0 ==>
            TotalWeight(r.weights) == 1.0 && forall i :: 0 <= i < |r.weights| ==> r.weights[i].val <= 1.0)
      && (s[0] <= 0.0 && s[1] <= 0.0 && s[2] <= 0.0 ==>
            forall i :: 0 <= i < |r.weights| ==> r.weights[i].val == 0.0)
  {
    var s := ValidationScores(l, exp, zoneMatrixLoaded, p);
    TrainedWeights(s[0], s[1], s[2]);
    var gaussian := FitGaussian(l, exp, zoneMatrixLoaded, p);
    Trained(Members(l.fitXgb(p.xTrain, p.yTrain), l.fitRf(p.xTrain, p.yTrain), AsPredictor(gaussian, exp)),
            Normalize(RawWeights(s[0], s[1], s[2])), p.xTest, p.yTest)
  }

  /**
   * `train_ensemble` on the stored training table: a missing training column
   * is a KeyError, and a table of fewer than four rows makes one of the
   * splits refuse with a ValueError.
   */
  function TrainEnsemble(l: Learners, exp: real -> real, zoneMatrixLoaded: bool, data: Table): (r: Result<Trained>)
    ensures r.Ok? <==> HasTrainingColumns(data) && data.height >= 4
    ensures r.Err? && !HasTrainingColumns(data) ==>
      r.error.KeyError? && r.error.key in TrainingColumns && r.error.key !in data.cols
    ensures r.Err? && HasTrainingColumns(data) ==> r.error == ValueError
    ensures r.Ok? ==> var prepared := PrepareFeatures(exp, data).value;
      r.value == TrainOn(l, exp, zoneMatrixLoaded, Partition(l.shuffle, prepared.x, prepared.y).value)
  {
    var prepared :- PrepareFeatures(exp, data);
    var p :- Partition(l.shuffle, prepared.x, prepared.y);
    Ok(TrainOn(l, exp, zoneMatrixLoaded, p))
  }

  // ---- Properties of the trained ensemble ----

  /**
   * The trained weights are non-negative and keyed like the models; they sum
   * to 1 when some model scores above zero and are all zero otherwise.
   */
  lemma TrainedWeights(xgbScore: real, rfScore: real, gaussianScore: real)
    ensures var w := Normalize(RawWeights(xgbScore, rfScore, gaussianScore));
      && Keys(w) == ModelKeys && NonNegative(w)
      && (xgbScore > 0.0 || rfScore > 0.0 || gaussianScore > 0.0 ==>
            TotalWeight(w) == 1.0 && forall i :: 0 <= i < |w| ==> w[i].val <= 1.0)
      && (xgbScore <= 0.0 && rfScore <= 0.0 && gaussianScore <= 0.0 ==>
            forall i :: 0 <= i < |w| ==> w[i].val == 0.0)
  {
    var raw := RawWeights(xgbScore, rfScore, gaussianScore);
    SumNonneg(Vals(raw));
    if TotalWeight(raw) > 0.0 {
      NormalizedSumToOne(raw);
    } else {
      assert forall i :: 0 <= i < |raw| ==> raw[i].val == Vals(raw)[i];
    }
  }

  lemma ModelKeysDistinct()
    ensures Distinct(ModelKeys)
  {
  }

  /**
   * An ensemble weighted by the trained weights divides by zero exactly when
   * no model scored above zero on the validation partition.
   */
  lemma NoSkillDividesByZero(models: seq<Entry<Predictor>>, xgbScore: real, rfScore: real, gaussianScore: real, x: Table)
    requires Keys(models) == ModelKeys && Aligned(models, x)
    ensures var r := PredictEnsemble(models, Normalize(RawWeights(xgbScore, rfScore, gaussianScore)), x);
      && (r.Err? <==> xgbScore <= 0.0 && rfScore <= 0.0 && gaussianScore <= 0.0)
      && (r.Err? ==> r.error == ZeroDivision)
  {
    var w := Normalize(RawWeights(xgbScore, rfScore, gaussianScore));
    TrainedWeights(xgbScore, rfScore, gaussianScore);
    assert AllWeighted(models, w) by {
      assert forall i :: 0 <= i < |models| ==> models[i].key == Keys(models)[i] == Keys(w)[i];
    }
    ZeroDivisionIffAllZero(models, w, x);
  }

  /**
   * Two models at or below zero and one above: the ensemble predicts exactly
   * what the surviving Gaussian model predicts.
   */
  lemma SurvivorDecides(models: seq<Entry<Predictor>>, xgbScore: real, rfScore: real, gaussianScore: real, x: Table)
    requires Keys(models) == ModelKeys && Aligned(models, x)
    requires xgbScore <= 0.0 && rfScore <= 0.0 && gaussianScore > 0.0
    ensures PredictEnsemble(models, Normalize(RawWeights(xgbScore, rfScore, gaussianScore)), x) == Ok(models[2].val(x))
  {
    var w := Normalize(RawWeights(xgbScore, rfScore, gaussianScore));
    TrainedWeights(xgbScore, rfScore, gaussianScore);
    ModelKeysDistinct();
    assert w[2].val != 0.0 by {
      assert TotalWeight(w) == 1.0;
      assert Vals(w) == [w[0].val, w[1].val, w[2].val];
    }
    SingleWeightSelects(models, w, x, 2);
  }

  lemma MembersAligned(xgb: Predictor, rf: Predictor, gaussian: Predictor, query: Table)
    requires RowPreserving(xgb) && RowPreserving(rf) && RowPreserving(gaussian)
    ensures Aligned(Members(xgb, rf, gaussian), query)
  {
  }

  /** With row-preserving learners, every trained model predicts one value per row of any table. */
  lemma TrainedAligned(l: Learners, exp: real -> real, zoneMatrixLoaded: bool, p: Partitions, query: Table)
    requires LearnersLaws(l)
    ensures Aligned(TrainOn(l, exp, zoneMatrixLoaded, p).models, query)
  {
    var xgb := l.fitXgb(p.xTrain, p.yTrain);
    var rf := l.fitRf(p.xTrain, p.yTrain);
    var gaussian := AsPredictor(FitGaussian(l, exp, zoneMatrixLoaded, p), exp);
    assert RowPreserving(xgb) && RowPreserving(rf);
    FittedPredictorPreservesRows(NewModel(zoneMatrixLoaded), l.fitRidge, exp, p.xTrain, p.yTrain);
    assert RowPreserving(gaussian);
    MembersAligned(xgb, rf, gaussian, query);
  }

  /**
   * The trained ensemble fails with ZeroDivision on every query exactly when
   * all three validation scores are at or below zero.
   */
  lemma TrainedEnsembleFailsIffNoSkill(l: Learners, exp: real -> real, zoneMatrixLoaded: bool,
                                       p: Partitions, query: Table)
    requires LearnersLaws(l)
    ensures var trained := TrainOn(l, exp, zoneMatrixLoaded, p);
      var s := ValidationScores(l, exp, zoneMatrixLoaded, p);
      Aligned(trained.models, query) &&
      var r := PredictEnsemble(trained.models, trained.weights, query);
      && (r.Err? <==> s[0] <= 0.0 && s[1] <= 0.0 && s[2] <= 0.0)
      && (r.Err? ==> r.error == ZeroDivision)
  {
    var s := ValidationScores(l, exp, zoneMatrixLoaded, p);
    var trained := TrainOn(l, exp, zoneMatrixLoaded, p);
    TrainedAligned(l, exp, zoneMatrixLoaded, p, query);
    NoSkillDividesByZero(trained.models, s[0], s[1], s[2], query);
  }

  // ---- The learner laws are satisfiable ----

  /** A fitter whose predictor answers 0 for every row. */
  function ZeroFit(t: Table, y: seq<real>): Predictor {
    (q: Table) => seq(q.height, k => 0.0)
  }

  function ZeroScore(truth: seq<real>, predicted: seq<real>): real {
    0.0
  }

  /** Library stand-ins meeting every law the proofs assume: the hypotheses are not contradictory. */
  lemma LearnersAreSatisfiable()
    ensures FitterLaws(ZeroFit)
    ensures LearnersLaws(Learners(Identity, ZeroFit, ZeroFit, ZeroFit, ZeroScore))
  {
    forall t: Table, y: seq<real> ensures RowPreserving(ZeroFit(t, y)) {
      var p := ZeroFit(t, y);
      forall q: Table ensures |p(q)| == q.height {
      }
    }
  }
}

=== FILE: zone_builder.dfy ===
/**
 * The polycentric zone geometry of the Rhine-Ruhr region: the zone centres,
 * the per-station influence map, the station-coordinate fallback, the feature
 * rows and the zone-to-zone interaction matrix.
 */
module ZoneBuilder {
  import opened Results
  import opened Tables
  import opened GeoDecay
  import Collector

  /** A zone centre with the population that weights its influence. */
  datatype ZoneCenter = ZoneCenter(center: Coord, population: nat)

  /** The Düsseldorf key as the zone table spells it: U+221A U+00BA in place of U+00FC. */
  const MojibakeDuesseldorf: string := "D\U{221A}\U{00BA}sseldorf"

  /** The eight zone centres in table order; only the Düsseldorf key varies. */
  function ZoneTable(duesseldorfKey: string): seq<Entry<ZoneCenter>> {
    [ Entry("Dortmund", ZoneCenter(Coord(51.5136, 7.4653), 588000)),
      Entry("Essen", ZoneCenter(Coord(51.4556, 7.0116), 583000)),
      Entry("Duisburg", ZoneCenter(Coord(51.4344, 6.7623), 498000)),
      Entry(duesseldorfKey, ZoneCenter(Coord(51.2277, 6.7735), 620000)),
      Entry("Cologne", ZoneCenter(Coord(50.9422, 6.9581), 1086000)),
      Entry("Bonn", ZoneCenter(Coord(50.7359, 7.0999), 327000)),
      Entry("Bochum", ZoneCenter(Coord(51.4818, 7.2162), 365000)),
      Entry("Wuppertal", ZoneCenter(Coord(51.2562, 7.1507), 355000)) ]
  }

  /** The zone table exactly as written, with the garbled Düsseldorf key. */
  const SourceZones: seq<Entry<ZoneCenter>> := ZoneTable(MojibakeDuesseldorf)

  /** The zone table keyed by the collector's city names. */
  const Zones: seq<Entry<ZoneCenter>> := ZoneTable(Collector.RhineRuhrCities[3])

  /** The corrected zone keys are exactly the collector's cities, in the same order. */
  lemma ZoneKeysAreCities()
    ensures Keys(Zones) == Collector.RhineRuhrCities
  {
    ZoneTableKeys(Collector.RhineRuhrCities[3]);
  }

  lemma ZoneTableKeys(duesseldorfKey: string)
    ensures Keys(ZoneTable(duesseldorfKey))
         == ["Dortmund", "Essen", "Duisburg", duesseldorfKey, "Cologne", "Bonn", "Bochum", "Wuppertal"]
  {
    var ks := Keys(ZoneTable(duesseldorfKey));
    assert |ks| == 8;
  }

  /**
   * Whatever the Düsseldorf key, as long as it is not spelled like another
   * city, the zone keys are pairwise different.
   */
  lemma ZoneTableKeysDistinct(duesseldorfKey: string)
    requires |duesseldorfKey| >= 10
    ensures Distinct(Keys(ZoneTable(duesseldorfKey)))
  {
    var ks := Keys(ZoneTable(duesseldorfKey));
    assert |ks[0]| == 8 && |ks[1]| == 5 && |ks[2]| == 8 && |ks[4]| == 7;
    assert |ks[5]| == 4 && |ks[6]| == 6 && |ks[7]| == 9 && |ks[3]| >= 10;
    assert ks[0][1] != ks[2][1];
  }

  lemma ZoneKeysDistinct()
    ensures Distinct(Keys(Zones)) && Distinct(Keys(SourceZones))
  {
    ZoneTableKeysDistinct(Collector.RhineRuhrCities[3]);
    ZoneTableKeysDistinct(MojibakeDuesseldorf);
  }

  /** The city a station falls back to when it has no zone city. */
  const DefaultZoneCity: string := "Dortmund"
  /** The label written for a missing station name or zone city. */
  const UnknownLabel: string := "Unknown"

  /** `population / 1e6`. */
  function PopulationWeight(z: ZoneCenter): (w: real)
    ensures 0.0 <= w
    ensures z.population > 0 ==> 0.0 < w
  {
    z.population as real / 1000000.0
  }

  /** The influence of one zone on a station: Gaussian decay at scale 50 km times population weight. */
  function Influence(g: Numerics, z: ZoneCenter, station: Coord): real {
    Decay(g.exp, g.dist(station, z.center), InfluenceSigma) * PopulationWeight(z)
  }

  /** `assign_zone_influence`: one entry per zone, in zone order, nothing normalised across zones. */
  function AssignZoneInfluence(g: Numerics, zones: seq<Entry<ZoneCenter>>, station: Coord): (r: seq<Entry<real>>)
    ensures Keys(r) == Keys(zones)
    ensures forall i :: 0 <= i < |r| ==> r[i].val == Influence(g, zones[i].val, station)
  {
    seq(|zones|, i requires 0 <= i < |zones| => Entry(zones[i].key, Influence(g, zones[i].val, station)))
  }

  /** A decay in (0, 1] times a non-negative weight lies between 0 and the weight. */
  lemma ScaledBelow(decay: real, w: real)
    requires 0.0 < decay <= 1.0 && 0.0 <= w
    ensures 0.0 <= decay * w <= w
    ensures 0.0 < w ==> 0.0 < decay * w
    ensures decay == 1.0 ==> decay * w == w
  {
  }

  /**
   * Every influence is positive (for a populated zone) and at most the zone's
   * population weight; a station at the zone centre receives exactly that weight.
   */
  lemma InfluenceBounds(g: Numerics, z: ZoneCenter, station: Coord)
    requires g.Lawful()
    ensures 0.0 <= Influence(g, z, station) <= PopulationWeight(z)
    ensures z.population > 0 ==> 0.0 < Influence(g, z, station)
    ensures station == z.center ==> Influence(g, z, station) == PopulationWeight(z)
  {
    var d := g.dist(station, z.center);
    assert Decay(g.exp, d, InfluenceSigma) > 0.0;
    ScaledBelow(Decay(g.exp, d, InfluenceSigma), PopulationWeight(z));
    assert Influence(g, z, station) == Decay(g.exp, d, InfluenceSigma) * PopulationWeight(z);
    assert Decay(g.exp, d, InfluenceSigma) * PopulationWeight(z) <= PopulationWeight(z);
  }

  /** Looking a zone up in the influence map yields that zone's own influence. */
  lemma {:induction false} InfluenceLookup(g: Numerics, zones: seq<Entry<ZoneCenter>>, station: Coord, k: string)
    requires Distinct(Keys(zones))
    ensures Get(AssignZoneInfluence(g, zones, station), k).Some? <==> Get(zones, k).Some?
    ensures Get(zones, k).Some? ==>
      Get(AssignZoneInfluence(g, zones, station), k) == Some(Influence(g, Get(zones, k).value, station))
  {
    var r := AssignZoneInfluence(g, zones, station);
    if k in Keys(zones) {
      var i :| 0 <= i < |zones| && Keys(zones)[i] == k;
      GetAt(zones, i);
      GetAt(r, i);
    }
  }

  /**
   * A station placed on the Cologne centre is influenced by Cologne with weight
   * 1.086, and by every other zone strictly less.
   */
  lemma CologneDominatesAtItsCentre(g: Numerics)
    requires g.Lawful()
    ensures var r := AssignZoneInfluence(g, Zones, Coord(50.9422, 6.9581));
      && r[4].key == "Cologne" && r[4].val == 1.086
      && forall i :: 0 <= i < |r| && i != 4 ==> r[i].val < 1.086
  {
    var cologne := Coord(50.9422, 6.9581);
    var r := AssignZoneInfluence(g, Zones, cologne);
    ZonePopulations(Collector.RhineRuhrCities[3]);
    InfluenceBounds(g, Zones[4].val, cologne);
    forall i | 0 <= i < |r| && i != 4 ensures r[i].val < 1.086 {
      InfluenceBounds(g, Zones[i].val, cologne);
    }
  }

  /** Cologne is the fifth and most populous zone; every other zone has at most 620000 inhabitants. */
  lemma ZonePopulations(duesseldorfKey: string)
    ensures |ZoneTable(duesseldorfKey)| == 8
    ensures ZoneTable(duesseldorfKey)[4] == Entry("Cologne", ZoneCenter(Coord(50.9422, 6.9581), 1086000))
    ensures PopulationWeight(ZoneTable(duesseldorfKey)[4].val) == 1.086
    ensures forall i :: 0 <= i < 8 && i != 4 ==> PopulationWeight(ZoneTable(duesseldorfKey)[i].val) <= 0.62
  {
  }

  /** One row of the station network file; a column the file lacks is None. */
  datatype NetworkStation = NetworkStation(
    name: Option<string>, zoneCity: Option<string>, latitude: Option<real>, longitude: Option<real>)

  /** The fallback branch applies unless a latitude is present and non-zero. */
  predicate UsesFallback(st: NetworkStation) {
    !(st.latitude.Some? && st.latitude.value != 0.0)
  }

  /** The city whose centre stands in for a station without coordinates. */
  function FallbackCity(st: NetworkStation): string {
    st.zoneCity.GetOr(DefaultZoneCity)
  }

  /**
   * The coordinate rule of `build_zone_features`: a non-zero latitude keeps the
   * station's own position (even with a zero longitude); otherwise the centre of
   * its zone city, Dortmund when it has none.
   */
  function StationCoord(zones: seq<Entry<ZoneCenter>>, st: NetworkStation): (r: Result<Coord>)
    ensures !UsesFallback(st) ==>
      && (r.Ok? <==> st.longitude.Some?)
      && (r.Ok? ==> r.value == Coord(st.latitude.value, st.longitude.value))
      && (r.Err? ==> r.error == KeyError("longitude"))
    ensures UsesFallback(st) ==>
      && (r.Ok? <==> FallbackCity(st) in Keys(zones))
      && (r.Ok? ==> Get(zones, FallbackCity(st)) == Some(ZoneCenter(r.value, Get(zones, FallbackCity(st)).value.population)))
      && (r.Err? ==> r.error == KeyError(FallbackCity(st)))
  {
    if !UsesFallback(st) then
      match st.longitude
      case Some(lon) => Ok(Coord(st.latitude.value, lon))
      case None => Err(KeyError("longitude"))
    else
      match Get(zones, FallbackCity(st))
      case Some(z) => Ok(z.center)
      case None => Err(KeyError(FallbackCity(st)))
  }

  /** One row of the zone feature table: labels, resolved position, then one influence per zone. */
  datatype ZoneFeatureRow = ZoneFeatureRow(
    stationName: string, stationCity: string, position: Coord, influences: seq<Entry<real>>)

  function FeatureRowAt(g: Numerics, zones: seq<Entry<ZoneCenter>>, st: NetworkStation, position: Coord): ZoneFeatureRow {
    ZoneFeatureRow(st.name.GetOr(UnknownLabel), st.zoneCity.GetOr(UnknownLabel), position,
                   AssignZoneInfluence(g, zones, position))
  }

  /**
   * `build_zone_features` without the file output: one row per station in
   * input order, or the error of the first station whose coordinate lookup fails.
   */
  function BuildZoneFeatures(g: Numerics, zones: seq<Entry<ZoneCenter>>, stations: seq<NetworkStation>)
    : (r: Result<seq<ZoneFeatureRow>>)
    ensures r.Ok? <==> forall i :: 0 <= i < |stations| ==> StationCoord(zones, stations[i]).Ok?
    ensures r.Ok? ==> |r.value| == |stations|
    ensures r.Ok? ==> forall i :: 0 <= i < |stations| ==>
      r.value[i] == FeatureRowAt(g, zones, stations[i], StationCoord(zones, stations[i]).value)
    ensures r.Err? ==> exists i :: (0 <= i < |stations| && StationCoord(zones, stations[i]).Err?
      && r.error == StationCoord(zones, stations[i]).error
      && forall j :: 0 <= j < i ==> StationCoord(zones, stations[j]).Ok?)
    decreases |stations|
  {
    if stations == [] then Ok([])
    else
      var position :- StationCoord(zones, stations[0]);
      var rest :- BuildZoneFeatures(g, zones, stations[1..]);
      Ok([FeatureRowAt(g, zones, stations[0], position)] + rest)
  }

  /** A station with neither coordinates nor zone city sits on Dortmund's centre yet is labelled Unknown. */
  lemma MissingCityIsLabelledUnknown(g: Numerics, name: Option<string>)
    ensures var st := NetworkStation(name, None, None, None);
      var r := BuildZoneFeatures(g, Zones, [st]);
      && r.Ok?
      && r.value[0].stationCity == UnknownLabel
      && r.value[0].position == Coord(51.5136, 7.4653)
  {
    var st := NetworkStation(name, None, None, None);
    var centre := Coord(51.5136, 7.4653);
    GetAt(Zones, 0);
    assert StationCoord(Zones, st) == Ok(centre);
    assert [st][0] == st;
  }

  /** A network row as the collector writes it: a station record tagged with the city it was found for. */
  function TagWithZone(rec: Collector.StationRecord, city: string): (st: NetworkStation)
    ensures st.zoneCity == Some(city)
    ensures st.latitude == Some(rec.latitude) && st.longitude == Some(rec.longitude)
  {
    NetworkStation(Some(rec.name), Some(city), Some(rec.latitude), Some(rec.longitude))
  }

  /** The minimal station list of the given cities, each station tagged with its own city. */
  function MinimalNetworkOf(cities: seq<string>): (sts: seq<NetworkStation>)
    ensures |sts| == |cities|
    ensures forall i :: 0 <= i < |sts| ==> UsesFallback(sts[i]) && FallbackCity(sts[i]) == cities[i]
  {
    var recs := Collector.CreateMinimalStations(cities);
    seq(|recs|, i requires 0 <= i < |recs| => TagWithZone(recs[i], recs[i].city))
  }

  /** The minimal station list the collector writes for the Rhine-Ruhr cities. */
  function MinimalNetwork(): (sts: seq<NetworkStation>)
    ensures |sts| == |Collector.RhineRuhrCities|
    ensures forall i :: 0 <= i < |sts| ==> UsesFallback(sts[i]) && FallbackCity(sts[i]) == Collector.RhineRuhrCities[i]
  {
    MinimalNetworkOf(Collector.RhineRuhrCities)
  }

  /** The collector's spelling of Düsseldorf is not a key of the zone table as written. */
  lemma SourceZonesLackDuesseldorf()
    ensures Collector.RhineRuhrCities[3] == "D\U{00FC}sseldorf"
    ensures "D\U{00FC}sseldorf" !in Keys(SourceZones)
  {
    assert forall i :: 0 <= i < 8 ==> Keys(SourceZones)[i] != "D\U{00FC}sseldorf" by {
      assert "D\U{00FC}sseldorf"[1] != MojibakeDuesseldorf[1];
    }
  }

  /** When stations 0..i-1 resolve and station i does not, the build fails with station i's error. */
  lemma FirstFailureWins(g: Numerics, zones: seq<Entry<ZoneCenter>>, stations: seq<NetworkStation>, i: nat)
    requires i < |stations| && StationCoord(zones, stations[i]).Err?
    requires forall j :: 0 <= j < i ==> StationCoord(zones, stations[j]).Ok?
    ensures BuildZoneFeatures(g, zones, stations) == Err(StationCoord(zones, stations[i]).error)
  {
  }

  /**
   * As written: the minimal Düsseldorf station falls back to its zone city,
   * which the zone table does not spell the same way, so the lookup fails
   * and the whole feature build fails with it.
   */
  lemma DuesseldorfFallbackFails(g: Numerics)
    ensures StationCoord(SourceZones, MinimalNetwork()[3]) == Err(KeyError("D\U{00FC}sseldorf"))
    ensures BuildZoneFeatures(g, SourceZones, MinimalNetwork()) == Err(KeyError("D\U{00FC}sseldorf"))
  {
    var sts := MinimalNetwork();
    SourceZonesLackDuesseldorf();
    forall j | 0 <= j < 3 ensures StationCoord(SourceZones, sts[j]).Ok? {
      assert Keys(SourceZones)[j] == FallbackCity(sts[j]);
    }
    FirstFailureWins(g, SourceZones, sts, 3);
  }

  lemma FallbackToOwnZone(st: NetworkStation, i: nat)
    requires i < 8 && UsesFallback(st) && FallbackCity(st) == Collector.RhineRuhrCities[i]
    ensures StationCoord(Zones, st) == Ok(Zones[i].val.center)
  {
    ZoneKeysAreCities();
    ZoneKeysDistinct();
    GetAt(Zones, i);
  }

  /**
   * Corrected: with the zone keys spelled as the collector spells its cities,
   * every minimal station falls back to its own city's centre.
   */
  lemma MinimalStationsResolve()
    ensures forall i :: 0 <= i < |MinimalNetwork()| ==>
      StationCoord(Zones, MinimalNetwork()[i]) == Ok(Zones[i].val.center)
  {
    var sts := MinimalNetwork();
    forall i | 0 <= i < |sts| ensures StationCoord(Zones, sts[i]) == Ok(Zones[i].val.center) {
      FallbackToOwnZone(sts[i], i);
    }
  }

  /** Corrected: the feature build over the minimal network succeeds with one row per city. */
  lemma MinimalNetworkFeatures(g: Numerics)
    ensures var r := BuildZoneFeatures(g, Zones, MinimalNetwork());
      r.Ok? && |r.value| == |Collector.RhineRuhrCities|
  {
    MinimalStationsResolve();
    AllResolvedBuilds(g, Zones, MinimalNetwork());
  }

  lemma AllResolvedBuilds(g: Numerics, zones: seq<Entry<ZoneCenter>>, sts: seq<NetworkStation>)
    requires forall i :: 0 <= i < |sts| ==> StationCoord(zones, sts[i]).Ok?
    ensures BuildZoneFeatures(g, zones, sts).Ok? && |BuildZoneFeatures(g, zones, sts).value| == |sts|
  {
  }

  /** `calculate_zone_interaction`'s record. */
  datatype Interaction = Interaction(zone1: string, zone2: string, distanceKm: real, strength: real)

  /**
   * `calculate_zone_interaction`: the centre distance and its Gaussian decay at
   * scale 30 km; the first zone is looked up first, so its KeyError wins.
   */
  function CalculateZoneInteraction(g: Numerics, zones: seq<Entry<ZoneCenter>>, zone1: string, zone2: string)
    : (r: Result<Interaction>)
    ensures r.Ok? <==> zone1 in Keys(zones) && zone2 in Keys(zones)
    ensures r.Err? ==> r.error == KeyError(if zone1 !in Keys(zones) then zone1 else zone2)
    ensures r.Ok? ==> r.value.zone1 == zone1 && r.value.zone2 == zone2
    ensures r.Ok? ==> r.value.distanceKm == g.dist(Get(zones, zone1).value.center, Get(zones, zone2).value.center)
    ensures r.Ok? ==> r.value.strength == Decay(g.exp, r.value.distanceKm, InteractionSigma)
  {
    match (Get(zones, zone1), Get(zones, zone2))
    case (None, _) => Err(KeyError(zone1))
    case (Some(_), None) => Err(KeyError(zone2))
    case (Some(a), Some(b)) =>
      var d := g.dist(a.center, b.center);
      Ok(Interaction(zone1, zone2, d, Decay(g.exp, d, InteractionSigma)))
  }

  /** Swapping the two zones swaps the labels and keeps distance and strength, when distance is symmetric. */
  lemma InteractionSymmetric(g: Numerics, zones: seq<Entry<ZoneCenter>>, zone1: string, zone2: string)
    requires DistLaws(g.dist)
    requires zone1 in Keys(zones) && zone2 in Keys(zones)
    ensures CalculateZoneInteraction(g, zones, zone1, zone2).value.distanceKm
         == CalculateZoneInteraction(g, zones, zone2, zone1).value.distanceKm
    ensures CalculateZoneInteraction(g, zones, zone1, zone2).value.strength
         == CalculateZoneInteraction(g, zones, zone2, zone1).value.strength
  {
    var a := Get(zones, zone1).value.center;
    var b := Get(zones, zone2).value.center;
    assert g.dist(a, b) == g.dist(b, a);
  }

  /**
   * `build_interaction_matrix` without the file output: an n-by-n matrix over
   * the zones in table order, zero on the diagonal, interaction strength elsewhere.
   */
  function BuildInteractionMatrix(g: Numerics, zones: seq<Entry<ZoneCenter>>): (m: seq<seq<real>>)
    requires Distinct(Keys(zones))
    ensures |m| == |zones|
    ensures forall i :: 0 <= i < |m| ==> |m[i]| == |zones|
    ensures forall i :: 0 <= i < |m| ==> m[i][i] == 0.0
    ensures forall i, j :: 0 <= i < |m| && 0 <= j < |m| && i != j ==>
      m[i][j] == Decay(g.exp, g.dist(zones[i].val.center, zones[j].val.center), InteractionSigma)
  {
    var names := Keys(zones);
    var n := |names|;
    assert forall i :: 0 <= i < n ==> Get(zones, names[i]) == Some(zones[i].val) by {
      forall i | 0 <= i < n ensures Get(zones, names[i]) == Some(zones[i].val) {
        GetAt(zones, i);
      }
    }
    seq(n, i requires 0 <= i < n =>
      seq(n, j requires 0 <= j < n =>
        if i == j then 0.0 else CalculateZoneInteraction(g, zones, names[i], names[j]).value.strength))
  }

  /** Under symmetric distance the interaction matrix is symmetric. */
  lemma MatrixSymmetric(g: Numerics, zones: seq<Entry<ZoneCenter>>)
    requires DistLaws(g.dist) && Distinct(Keys(zones))
    ensures var m := BuildInteractionMatrix(g, zones);
      forall i, j :: 0 <= i < |m| && 0 <= j < |m| ==> m[i][j] == m[j][i]
  {
    var m := BuildInteractionMatrix(g, zones);
    forall i, j | 0 <= i < |m| && 0 <= j < |m| ensures m[i][j] == m[j][i] {
      if i != j {
        assert g.dist(zones[i].val.center, zones[j].val.center) == g.dist(zones[j].val.center, zones[i].val.center);
      }
    }
  }

  /** Off-diagonal cells are interaction weights in (0, 1]; the diagonal is 0. */
  lemma MatrixCellsInUnit(g: Numerics, zones: seq<Entry<ZoneCenter>>)
    requires ExpLaws(g.exp) && Distinct(Keys(zones))
    ensures var m := BuildInteractionMatrix(g, zones);
      forall i, j :: 0 <= i < |m| && 0 <= j < |m| ==> (i == j <==> m[i][j] == 0.0) && m[i][j] <= 1.0
  {
    var m := BuildInteractionMatrix(g, zones);
    forall i, j | 0 <= i < |m| && 0 <= j < |m| && i != j ensures 0.0 < m[i][j] <= 1.0 {
      assert Decay(g.exp, g.dist(zones[i].val.center, zones[j].val.center), InteractionSigma) > 0.0;
    }
  }
}
